=== FILE: README.md ===
# verisure-domoticz, modelled in Dafny

verisure-domoticz copies the state of a Verisure alarm installation into a
Domoticz home-automation hub. One synchronisation pass does four things:

- It reads the configuration and refuses to run without the mandatory
  sections and options.
- It fetches one overview from Verisure.
- It walks that overview in a fixed order: climate sensors, door/window
  sensors, the SMS counter, the arm state, the ethernet status and the
  switch plugs.
- For every device the sensor index maps to a Domoticz index, it asks the
  hub when that index last changed. Only when Verisure's instant is
  strictly later does it send the matching update command.

This project models that core as pure functions and proves what they
promise:

| module | file | models |
|---|---|---|
| `Config` | config.dfy | `parseConfig`'s validation and the template it writes |
| `Hub` | hub.dfy | `callDomoticz`'s envelope decoding and `getLastDomoticzUpdatedTimestamp` |
| `Json` | json.dfy | decoded JSON, and Python's `in` and subscripting on it |
| `Devices` | devices.dfy | the overview records and the per-device entries a pass processes |
| `Commands` | commands.dfy | the update URLs and the parameters they carry |
| `Updates` | updates.dfy | `processUpdates`: the staleness gate and the per-type commands |
| `Sync` | sync.dfy | the enumeration in `main`, and a whole pass |
| `Scenarios` | scenarios.dfy | worked examples against a hub with fixed answers |
| `Text`, `Query`, `Wrappers`, `Errors` | text.dfy, query.dfy, wrappers.dfy, errors.dfy | strings, query strings, `Option`/`Result`, and the faults that end a pass |

A Python crash ends the pass and the process. This covers `exit(1)`,
`KeyError`, `TypeError`, `IndexError` and an unbound local. The model turns
each of these into an `Errors.Fault` value that is returned to the caller.

The hub is a function from query string to transport outcome
(`Hub.Endpoint`). Arrow's conversion of the hub's `LastUpdate` text into an
instant is a function parameter (`Hub.Clock`). The "current instant" is a
parameter too.

Some behaviour of the code is easy to miss:

- The sensor-index lookup is case-insensitive. `ConfigParser` passes every
  option name through `optionxform`, which lower-cases it, both when the
  file is read and on every lookup (`Config.Get`).
- The switch-plug loop subscripts each `zip` pair with a string key. In
  Python that raises `TypeError`, so the pass ends as soon as both plug lists
  are non-empty (`Sync.Mandatory`). The model does not invent a pairing
  semantics.
- A device missing from the hub is reported and skipped. An unknown
  door/window or arm state, however, leaves a local unbound and ends the
  pass (`UnboundSwitchState`, `UnboundAlarmState`).

## Model

| member | source | states |
|---|---|---|
| Config.Get | importVerisure.py:211-212 | an option lookup succeeds exactly when the lower-cased name is stored, and yields the stored value |
| Config.Required | verisure_domoticz.py:48-55 | four required sections, with `sensorindex` needing "sms count" and "arm state"; `email` is added exactly when the caller asks for it |
| Config.CheckKeys | verisure_domoticz.py:62-68 | no report exactly when every option is present and non-empty; otherwise the report names a missing or empty option, and every option before it is fine |
| Config.Check | verisure_domoticz.py:57-68 | no report exactly when every required section is acceptable; otherwise the report is a real defect of the first section that is not |
| Config.Validate | verisure_domoticz.py:47-71 | the configuration is returned unchanged exactly when every required option is present and non-empty; otherwise the error is a genuine defect of the first defective section |
| Config.OtherSensorIndexKeysUnconstrained | verisure_domoticz.py:52 | adding or changing any sensor-index option other than the two mandatory ones never changes the verdict |
| Config.EmailRequiredOnlyOnRequest | verisure_domoticz.py:54-55 | without an `email` section, mailbox mode is refused; otherwise the `email` section is irrelevant; acceptance in mailbox mode implies acceptance in plain mode |
| Config.TemplateHasEveryRequiredKey | verisure_domoticz.py:29-33 | the template written for a missing file names every required section and option, in both modes |
| Config.TemplateRejected | verisure_domoticz.py:29-33 | an unedited template is refused in both modes, at an empty Verisure credential (the user name, in the listing order the model checks) |
| Config.TemplateRejectedInEitherOrder | verisure_domoticz.py:50-68 | whichever order Python's set visits the two Verisure options in, the unedited template is refused at the `verisure` section for the first of them, which is empty |
| Json.Contains | importVerisure.py:61 | `in` is a key test on a dict, an element test on a list and a substring test on a string (an occurrence at some position); it raises on numbers, booleans and null |
| Text.IsSubstringAt | importVerisure.py:61 | the substring reading of `in` on a string holds exactly when the key occurs at some position of the string, so `Json.Contains` on a string is a genuine occurrence test |
| Json.Member | importVerisure.py:62 | subscripting succeeds exactly on a dict holding the key, and yields its value |
| Json.First | importVerisure.py:47 | `[0]` yields the first element of a non-empty list or the first character of a non-empty string, and raises exactly when the value is neither |
| Hub.DecodeEnvelope | importVerisure.py:42-54 | a reply without `status` ends the pass; a status other than OK is the failure marker; with OK, a `result` gives its element `[0]` (or the fault of indexing it) and no `result` gives the whole envelope |
| Hub.Call | importVerisure.py:18-42 | an unreachable hub or a non-JSON reply ends the pass, naming the query; a delivered reply is decoded as an envelope |
| Hub.DecodePhrase | importVerisure.py:42-54 | decoding an envelope phrased for a record list, an acknowledgement or a refusal gives back the first record, the envelope, or the failure marker, whatever other fields it holds; an empty record list ends the pass |
| Hub.EnvelopeExamples | importVerisure.py:45-51 | three typical envelopes (a record list, status OK only, status ERROR) decode to the record, the envelope and the failure marker |
| Hub.LastUpdateTime | importVerisure.py:56-71 | a failed query gives NoReply; for any other reply (the first record or, with no `result`, the whole envelope) a payload without `LastUpdate` gives NotFound, a payload the `in` test cannot read is a fault, and a non-object payload that contains the text `LastUpdate` cannot be subscripted; otherwise the instant the clock gives for `LastUpdate`, or a fault when it cannot convert it |
| Hub.QueryLastUpdate | importVerisure.py:59 | a failed device query ends the pass with exactly that call's fault (the hub unreachable, or its reply not JSON, naming the query); its reply is read as a last-update instant |
| Hub.LastUpdateAsWritten | importVerisure.py:56-71 | the function as written: a failed query, or a first record that is the number -1, yields the sentinel -1 |
| Hub.AsWrittenForgetsReason | importVerisure.py:60-67 | the as-written result is the typed result with NoReply and NotFound both erased to -1 |
| Hub.SentinelCollision | importVerisure.py:60-67 | a record whose instant is -1 is indistinguishable from a failed query in the as-written function, but not in the typed one |
| Commands.ValueRender | importVerisure.py:124 | the numeric-update URL is the query encoding of its five parameters |
| Commands.SwitchRender | importVerisure.py:138 | the switch URL is the query encoding of its four parameters |
| Commands.LevelRender | importVerisure.py:155 | the selector-level URL is the query encoding of its five parameters |
| Commands.PlugRender | importVerisure.py:170 | the plug URL is the switch URL with an extra leading `&` |
| Commands.ParamsWellFormed | importVerisure.py:124-170 | when index and value hold no `&`, every parameter has a non-empty name free of `=` and `&` and a value free of `&` |
| Commands.RenderCarriesParams | importVerisure.py:124-170 | splitting every command's URL on `&` and `=` gives back exactly its intended parameters (no percent-decoding, so `Set%20Level` stays as written); the plug URL's extra `&` adds nothing |
| Updates.ResolveLabel | importVerisure.py:105-106 | a device with a label keeps it; one without gets the upper-cased type tag; its reading is untouched |
| Updates.ClimateValueFields | importVerisure.py:124-128 | the climate `svalue` splits on `;` into the temperature alone, or into temperature, humidity and "0" |
| Updates.DoorSwitch | importVerisure.py:132-135 | CLOSE maps to Off and OPEN to On, and no other state maps to anything |
| Updates.ArmLevel | importVerisure.py:147-152 | DISARMED, ARMED_HOME and ARMED_AWAY map to 0, 10 and 20, and no other status maps to anything |
| Updates.ArmLevelInjective | importVerisure.py:147-152 | distinct arm states never share a level |
| Updates.EthernetSwitch | importVerisure.py:159-162 | On exactly when the test result compares equal to True, Off otherwise |
| Updates.Decide | importVerisure.py:120-174 | an unknown tag sends nothing; a known tag whose record lacks its field ends the pass; a door/window state outside OPEN/CLOSE ends it as an unbound switch state and an arm state outside the three levels as an unbound alarm state; any command targets the device's index |
| Updates.DecideByType | importVerisure.py:122-170 | the command each device type yields; the SMS count is sent as decimal text that parses back to the count |
| Updates.ProcessDevice | importVerisure.py:102-186 | hub read faults end the pass; with no instant from the hub, or one not earlier than Verisure's, nothing is sent; with an earlier instant, a fault in building the command ends the pass, an unknown tag reports the device without sending, and a transport fault on the update ends the pass with that fault; an update is sent exactly when the hub gave a strictly earlier instant and the command could be built and delivered, what is sent is that command's URL, and it counts as acknowledged exactly when the hub's reply is not the failure marker |
| Updates.SentUpdateCarriesCommand | importVerisure.py:176-177 | when the device's index and value hold no `&`, the request sent for it decodes, at the hub, to exactly its command's parameters, and its type tag is a known one |
| Updates.GateDiffersOnlyAtSentinel | importVerisure.py:111-120 | the model's staleness gate opens exactly when the source's `-1`-sentinel gate does, or when the hub's instant is exactly -1 and Verisure's is later |
| Sync.Select | importVerisure.py:210-217 | only devices whose label the sensor index knows are kept, each with that index |
| Sync.SelectKeepsKnown | importVerisure.py:210-217 | every device whose label the sensor index knows is kept, with its index |
| Sync.SelectAppend | importVerisure.py:210-217 | selection preserves the order of the overview |
| Sync.ClimateEntries | importVerisure.py:210-212 | one climate entry per selected sensor, in the overview's order, each with that sensor's index, time and temperature/humidity reading |
| Sync.DoorWindowEntries | importVerisure.py:215-217 | one door/window entry per selected sensor, in the overview's order, each with that sensor's index and state |
| Sync.ClimateEntriesFiltered | importVerisure.py:210-212 | a climate sensor has an entry exactly when its label is in the sensor index |
| Sync.DoorWindowEntriesFiltered | importVerisure.py:215-217 | a door/window sensor has an entry exactly when its label is in the sensor index |
| Sync.Mandatory | importVerisure.py:219-230 | the SMS entry (index of "sms count", the current instant, the SMS total), then the arm-state entry (index of "arm state", its date and status), then the ethernet entry (index of its label, test date and result); each is present exactly when its index and the ones before it are; a missing index stops the enumeration naming it; with all three, it stops exactly when both plug lists are non-empty, and then at the plug subscript |
| Sync.ValidConfigReachesEthernet | importVerisure.py:220-223 | under a configuration `parseConfig` accepts, the SMS and arm-state lookups never fail; only the ethernet label or the plug lists can stop the enumeration |
| Sync.Enumerate | importVerisure.py:209-230 | every entry carries the reading its type tag needs; the plan is the selected climate entries in sensor order, then the selected door/window entries in sensor order, the mandatory entries end the plan, and the plan stops exactly where the mandatory lookups stop |
| Sync.EnumerationOrder | importVerisure.py:209-226 | entries come in the order climate, door/window, SMS, arm state, ethernet |
| Sync.ClimateFilteredByIndex | importVerisure.py:210-212 | a climate sensor is processed exactly when the sensor index knows its label, and under that index |
| Sync.DoorWindowFilteredByIndex | importVerisure.py:215-217 | a door/window sensor is processed exactly when the sensor index knows its label, and under that index |
| Sync.RunPass | importVerisure.py:209-230 | the entries are processed in order; the pass stops at the first fault, which is the fault of the entry after the last report |
| Sync.Synchronise | importVerisure.py:209-230 | a pass reports on a prefix of the enumeration; it ends cleanly exactly when every entry was processed and the enumeration did not stop; otherwise it ends at the first device fault, or, with every entry processed, at the enumeration's stop |
| Sync.PassWritesOnlyNewer | importVerisure.py:113-177 | across a pass, every update sent is for a device whose hub instant exists and is strictly earlier, and (with no `&` in index or value) carries exactly its command's parameters |
| Sync.NoMissingFields | importVerisure.py:122-170 | no pass over an enumerated overview ends for a missing device field |
| Scenarios.ClimateScenario | importVerisure.py:120-128 | the sensor "AAAA BBBB" at 21.5 with index 7 sends `svalue=21.5` to idx 7 when the hub is older, and sends nothing on a tie or when the hub is newer |
| Scenarios.MissingLastUpdateScenario | importVerisure.py:61-65 | a hub record without `LastUpdate` skips the device without ending the pass |
| Scenarios.BareEnvelopeScenario | importVerisure.py:45-65 | an OK reply without `result` and without `LastUpdate` skips the device without ending the pass |

## Left out

- JSON numbers are integers only. A hub record `-1.0`, or an ethernet result
  `1.0` (which Python also counts as `== True`), cannot be represented;
  floating point is outside the model.
- The HTTP transport, the URL prefix built from `domoticz` options, and the
  exception handlers of `callDomoticz`. The hub is a function parameter. The
  handlers' `httplib` name is undefined in the source and would itself raise.
- The Verisure session: login, overview fetch and logout. The overview is an
  input value.
- Arrow's time-zone conversion and `arrow.now()`. Both are parameters:
  `Hub.Clock` and `now`.
- Logging, `exit(1)` and the process exit status. A fault value stands for
  them.
- The mailbox trigger (monitorVerisureMail.py), argument parsing and reading
  or writing the configuration file. `Config.Template` records what would be
  written.
- `ConfigParser`'s DEFAULT section, interpolation and value whitespace
  stripping.
- Number formatting. Temperatures and humidities are carried as the text
  `str()` prints for them.
- Case mapping beyond ASCII.
- The hub's state. Replies are a fixed function of the query, so an update
  does not change what a later read returns.
- `processUpdates` also inserts the default label into the caller's record.
  The model returns the label instead of mutating the overview.
- Config.Validate: Python iterates a set of option names in a
  hash-seed-dependent order. The model checks them in listing order and
  states only the order-independent facts: which section is reported, and
  that the reported option is really missing or empty.
- Updates.ProcessDevice: the staleness gate uses the corrected hub time
  (`Hub.LastUpdateTime`), so a hub instant of exactly -1 is compared like any
  other. The source skips such a device as if the hub had not answered (see
  Findings); `Updates.GateDiffersOnlyAtSentinel` states that this is the only
  difference.
- Updates.ProcessDevice: the provider instant is taken as an integer. Arrow's
  parsing of Verisure timestamps is not modelled.

## Findings

| source | as written | input that shows it | evidently intended | confidence | as-written member | corrected member |
|---|---|---|---|---|---|---|
| importVerisure.py:56-71, 113 | `getLastDomoticzUpdatedTimestamp` returns -1 for a failed query, for a device the hub lacks, and for a device whose last update really is the instant -1 | a record whose `LastUpdate` is 1969-12-31 23:59:59 UTC: the caller skips it as if the hub had failed | keep "no answer", "not found" and "found at t" apart, so that every real instant is compared | low, not executed | Hub.LastUpdateAsWritten, Hub.SentinelCollision | Hub.LastUpdateTime, Updates.GateDiffersOnlyAtSentinel |

=== FILE: commands.dfy ===
/** The write requests the program sends to the hub, and what each of them
    says to the hub's query parser (importVerisure.py, `processUpdates`). */
module Commands {
  import Query

  datatype Command =
    /** A numeric/text sensor update: `param=udevice`, `nvalue=0`, `svalue=<v>`. */
    | SetValue(idx: string, svalue: string)
    /** A binary switch: `param=switchlight`, `switchcmd=On|Off`. */
    | SetSwitch(idx: string, switchcmd: string)
    /** A selector switch: `switchcmd=Set%20Level`, `level=<n>`. */
    | SetLevel(idx: string, level: string)
    /** A switch-plug state, written with a stray `&` in front. */
    | SetPlug(idx: string, state: string)

  /** The query string the program concatenates, character for character;
      it is written here one `key=value` piece at a time. */
  function Render(c: Command): string {
    match c
    case SetValue(idx, v) =>
      "type=command" + "&" + "param=udevice" + "&" + "idx=" + idx + "&" + "nvalue=0" + "&" + "svalue=" + v
    case SetSwitch(idx, cmd) =>
      "type=command" + "&" + "param=switchlight" + "&" + "idx=" + idx + "&" + "switchcmd=" + cmd
    case SetLevel(idx, level) =>
      "type=command" + "&" + "param=switchlight" + "&" + "idx=" + idx + "&" + "switchcmd=Set%20Level" + "&" + "level=" + level
    case SetPlug(idx, state) =>
      "&" + "type=command" + "&" + "param=switchlight" + "&" + "idx=" + idx + "&" + "switchcmd=" + state
  }

  /** The parameters the hub is meant to receive, in order. */
  function Params(c: Command): seq<Query.Param> {
    match c
    case SetValue(idx, v) =>
      [("type", "command"), ("param", "udevice"), ("idx", idx), ("nvalue", "0"), ("svalue", v)]
    case SetSwitch(idx, cmd) =>
      [("type", "command"), ("param", "switchlight"), ("idx", idx), ("switchcmd", cmd)]
    case SetLevel(idx, level) =>
      [("type", "command"), ("param", "switchlight"), ("idx", idx), ("switchcmd", "Set%20Level"), ("level", level)]
    case SetPlug(idx, state) =>
      [("type", "command"), ("param", "switchlight"), ("idx", idx), ("switchcmd", state)]
  }

  /** The sensor index and the value contain no `&`, which would split them. */
  predicate Clean(c: Command) {
    match c
    case SetValue(idx, v) => '&' !in idx && '&' !in v
    case SetSwitch(idx, cmd) => '&' !in idx && '&' !in cmd
    case SetLevel(idx, level) => '&' !in idx && '&' !in level
    case SetPlug(idx, state) => '&' !in idx && '&' !in state
  }

  lemma EncodeFour(a: Query.Param, b: Query.Param, c: Query.Param, d: Query.Param)
    ensures Query.Encode([a, b, c, d]) ==
      Query.Segment(a) + "&" + Query.Segment(b) + "&" + Query.Segment(c) + "&" + Query.Segment(d)
  {
    Query.EncodeSingle(d);
    Query.EncodeCons(c, [d]);
    assert [c, d] == [c] + [d];
    Query.EncodeCons(b, [c, d]);
    assert [b, c, d] == [b] + [c, d];
    Query.EncodeCons(a, [b, c, d]);
    assert [a, b, c, d] == [a] + [b, c, d];
  }

  lemma EncodeFive(a: Query.Param, b: Query.Param, c: Query.Param, d: Query.Param, e: Query.Param)
    ensures Query.Encode([a, b, c, d, e]) ==
      Query.Segment(a) + "&" + Query.Segment(b) + "&" + Query.Segment(c) + "&" + Query.Segment(d) + "&" + Query.Segment(e)
  {
    Query.EncodeCons(a, [b, c, d, e]);
    assert [a, b, c, d, e] == [a] + [b, c, d, e];
    EncodeFour(b, c, d, e);
  }

  /** Regrouping a four-parameter query whose third and fourth values follow
      their `key=` text. */
  lemma Regroup4(t0: string, t1: string, k2: string, x2: string, k3: string, x3: string)
    ensures t0 + "&" + t1 + "&" + k2 + x2 + "&" + k3 + x3 == t0 + "&" + t1 + "&" + (k2 + x2) + "&" + (k3 + x3)
  {
  }

  /** The same for five parameters, the third and fifth being variable. */
  lemma Regroup5(t0: string, t1: string, k2: string, x2: string, t3: string, k4: string, x4: string)
    ensures t0 + "&" + t1 + "&" + k2 + x2 + "&" + t3 + "&" + k4 + x4
         == t0 + "&" + t1 + "&" + (k2 + x2) + "&" + t3 + "&" + (k4 + x4)
  {
  }

  lemma ValueRender(idx: string, v: string)
    ensures Render(SetValue(idx, v)) == Query.Encode(Params(SetValue(idx, v)))
  {
    EncodeFive(("type", "command"), ("param", "udevice"), ("idx", idx), ("nvalue", "0"), ("svalue", v));
    assert Query.Segment(("type", "command")) == "type=command";
    assert Query.Segment(("param", "udevice")) == "param=udevice";
    assert Query.Segment(("nvalue", "0")) == "nvalue=0";
    assert "idx" + "=" == "idx=";
    assert "svalue" + "=" == "svalue=";
    Regroup5("type=command", "param=udevice", "idx=", idx, "nvalue=0", "svalue=", v);
  }

  lemma SwitchRender(idx: string, cmd: string)
    ensures Render(SetSwitch(idx, cmd)) == Query.Encode(Params(SetSwitch(idx, cmd)))
  {
    EncodeFour(("type", "command"), ("param", "switchlight"), ("idx", idx), ("switchcmd", cmd));
    assert Query.Segment(("type", "command")) == "type=command";
    assert Query.Segment(("param", "switchlight")) == "param=switchlight";
    assert "idx" + "=" == "idx=";
    assert "switchcmd" + "=" == "switchcmd=";
    Regroup4("type=command", "param=switchlight", "idx=", idx, "switchcmd=", cmd);
  }

  lemma LevelRender(idx: string, level: string)
    ensures Render(SetLevel(idx, level)) == Query.Encode(Params(SetLevel(idx, level)))
  {
    EncodeFive(("type", "command"), ("param", "switchlight"), ("idx", idx), ("switchcmd", "Set%20Level"), ("level", level));
    assert Query.Segment(("type", "command")) == "type=command";
    assert Query.Segment(("param", "switchlight")) == "param=switchlight";
    assert Query.Segment(("switchcmd", "Set%20Level")) == "switchcmd=Set%20Level";
    assert "idx" + "=" == "idx=";
    assert "level" + "=" == "level=";
    Regroup5("type=command", "param=switchlight", "idx=", idx, "switchcmd=Set%20Level", "level=", level);
  }

  lemma PlugRender(idx: string, state: string)
    ensures Render(SetPlug(idx, state)) == "&" + Render(SetSwitch(idx, state))
  {
  }

  /** The parameters of a clean command survive a trip through a query string. */
  lemma ParamsWellFormed(c: Command)
    requires Clean(c)
    ensures forall i :: 0 <= i < |Params(c)| ==> Query.WellFormed(Params(c)[i])
  {
  }

  /** Every rendered request carries exactly the intended parameters; the
      stray `&` in front of a switch-plug request is an empty segment that
      adds nothing, so to the hub it means the same as a plain switch. */
  lemma {:induction false} RenderCarriesParams(c: Command)
    requires Clean(c)
    ensures Query.Decode(Render(c)) == Params(c)
    ensures c.SetPlug? ==> Params(c) == Params(SetSwitch(c.idx, c.state))
  {
    ParamsWellFormed(c);
    match c
    case SetValue(idx, v) =>
      ValueRender(idx, v);
      Query.DecodeEncode(Params(c));
    case SetSwitch(idx, cmd) =>
      SwitchRender(idx, cmd);
      Query.DecodeEncode(Params(c));
    case SetLevel(idx, level) =>
      LevelRender(idx, level);
      Query.DecodeEncode(Params(c));
    case SetPlug(idx, state) =>
      PlugRender(idx, state);
      SwitchRender(idx, state);
      ParamsWellFormed(SetSwitch(idx, state));
      Query.DecodeEncode(Params(SetSwitch(idx, state)));
      Query.LeadingSeparatorIgnored(Render(SetSwitch(idx, state)));
  }
}

=== FILE: config.dfy ===
/** The configuration the scripts read and the check `parseConfig` applies
    to it before anything else runs (verisure_domoticz.py).

    A configuration is what Python's `ConfigParser` holds after reading the
    INI file: section name to (option name to value). Section names are
    case-sensitive; option names are stored lower-cased and every lookup
    lower-cases the name asked for, so option lookup ignores case. */
module Config {
  import opened Wrappers
  import Text

  type Section = map<string, string>
  type Ini = map<string, Section>

  /** `section[key]` on a `ConfigParser` section: the option name is
      lower-cased before the lookup. */
  function Get(section: Section, key: string): (r: Option<string>)
    ensures r.Some? <==> Text.Lower(key) in section
    ensures r.Some? ==> r.value == section[Text.Lower(key)]
  {
    var k := Text.Lower(key);
    if k in section then Some(section[k]) else None
  }

  /** One section and the options it must hold, in the order they are checked. */
  datatype Requirement = Requirement(section: string, keys: seq<string>)

  /** Why a configuration is rejected. */
  datatype ConfigError =
    | MissingSection(section: string)
    | MissingKey(section: string, key: string)
    | EmptyValue(section: string, key: string)

  /** The sections and options every script needs; the mailbox script also
      names the `email` section, which then becomes mandatory too. */
  function Required(extraSection: string): (reqs: seq<Requirement>)
    ensures |reqs| == if extraSection == "email" then 5 else 4
    ensures reqs[3] == Requirement("sensorindex", ["sms count", "arm state"])
    ensures extraSection == "email" ==> reqs[4].section == "email"
    ensures forall i :: 0 <= i < |reqs| && reqs[i].section == "email" ==> extraSection == "email"
  {
    [ Requirement("domoticz", ["protocol", "host", "port"]),
      Requirement("verisure", ["username", "password"]),
      Requirement("global", ["loglevel", "timezone"]),
      Requirement("sensorindex", ["sms count", "arm state"]) ]
    + (if extraSection == "email"
       then [Requirement("email", ["host", "port", "ssl", "folder", "username", "password"])]
       else [])
  }

  // ---------------------------------------------------------------------
  // Declarative reading of "the configuration is acceptable"

  /** `key` is present in `section` and not the empty string. */
  predicate KeyOk(section: Section, key: string) {
    Get(section, key).Some? && Get(section, key).value != ""
  }

  predicate SectionOk(ini: Ini, req: Requirement) {
    req.section in ini && forall k :: 0 <= k < |req.keys| ==> KeyOk(ini[req.section], req.keys[k])
  }

  predicate Satisfies(ini: Ini, reqs: seq<Requirement>) {
    forall i :: 0 <= i < |reqs| ==> SectionOk(ini, reqs[i])
  }

  // ---------------------------------------------------------------------
  // The check as the program performs it: first failure wins

  /** Checks the options of one present section in order. */
  function CheckKeys(name: string, section: Section, keys: seq<string>): (r: Option<ConfigError>)
    ensures r.None? <==> forall k :: 0 <= k < |keys| ==> KeyOk(section, keys[k])
    ensures r.Some? ==> exists k :: (0 <= k < |keys| && Reports(r.value, name, section, keys[k])
                                     && forall j :: 0 <= j < k ==> KeyOk(section, keys[j]))
  {
    if keys == [] then None
    else if Get(section, keys[0]).None? then Some(MissingKey(name, keys[0]))
    else if Get(section, keys[0]).value == "" then Some(EmptyValue(name, keys[0]))
    else
      var rest := CheckKeys(name, section, keys[1..]);
      if rest.Some? then
        ghost var k :| 0 <= k < |keys[1..]| && Reports(rest.value, name, section, keys[1..][k])
          && forall j :: 0 <= j < k ==> KeyOk(section, keys[1..][j]);
        assert Reports(rest.value, name, section, keys[k + 1]);
        rest
      else rest
  }

  /** `e` is the right report for a defective `key` of the section `name`. */
  predicate Reports(e: ConfigError, name: string, section: Section, key: string) {
    || (e == MissingKey(name, key) && Get(section, key).None?)
    || (e == EmptyValue(name, key) && Get(section, key) == Some(""))
  }

  /** `e` correctly reports a defect of the requirement `req`: the section is
      absent, or one of its options is absent or empty. */
  predicate Genuine(e: ConfigError, ini: Ini, req: Requirement) {
    || (e == MissingSection(req.section) && req.section !in ini)
    || (req.section in ini
        && exists k :: 0 <= k < |req.keys| && Reports(e, req.section, ini[req.section], req.keys[k]))
  }

  /** Checks the required sections in order, stopping at the first defect. */
  function Check(ini: Ini, reqs: seq<Requirement>): (r: Option<ConfigError>)
    ensures r.None? <==> Satisfies(ini, reqs)
    ensures r.Some? ==> exists i :: (0 <= i < |reqs| && !SectionOk(ini, reqs[i])
                                     && (forall j :: 0 <= j < i ==> SectionOk(ini, reqs[j]))
                                     && Genuine(r.value, ini, reqs[i]))
  {
    if reqs == [] then None
    else if reqs[0].section !in ini then Some(MissingSection(reqs[0].section))
    else
      var here := CheckKeys(reqs[0].section, ini[reqs[0].section], reqs[0].keys);
      if here.Some? then here
      else
        var rest := Check(ini, reqs[1..]);
        if rest.Some? then
          ghost var i :| 0 <= i < |reqs[1..]| && !SectionOk(ini, reqs[1..][i])
            && (forall j :: 0 <= j < i ==> SectionOk(ini, reqs[1..][j]))
            && Genuine(rest.value, ini, reqs[1..][i]);
          assert !SectionOk(ini, reqs[i + 1]);
          rest
        else
          rest
  }

  /** `parseConfig` after the file was read: the configuration itself when
      every required option is present and non-empty; otherwise a real
      defect of the first defective section (where the program logs it and
      exits). Sections are checked in the order they are listed; which
      defect of that section is named depends on Python's set order. */
  function Validate(ini: Ini, extraSection: string): (r: Result<Ini, ConfigError>)
    ensures r.Success? <==> Satisfies(ini, Required(extraSection))
    ensures r.Success? ==> r.value == ini
    ensures r.Failure? ==>
      var reqs := Required(extraSection);
      exists i :: (0 <= i < |reqs| && !SectionOk(ini, reqs[i])
                   && (forall j :: 0 <= j < i ==> SectionOk(ini, reqs[j]))
                   && Genuine(r.error, ini, reqs[i]))
  {
    match Check(ini, Required(extraSection))
    case None => Success(ini)
    case Some(e) => Failure(e)
  }

  // ---------------------------------------------------------------------
  // Properties of the check

  /** The sensor-index section must map "sms count" and "arm state"; no other
      option of it is looked at, so adding or changing one never changes the
      verdict. */
  lemma OtherSensorIndexKeysUnconstrained(ini: Ini, extraSection: string, key: string, value: string)
    requires "sensorindex" in ini
    requires Text.Lower(key) != "sms count" && Text.Lower(key) != "arm state"
    ensures var changed := ini["sensorindex" := ini["sensorindex"][Text.Lower(key) := value]];
            Validate(changed, extraSection).Success? <==> Validate(ini, extraSection).Success?
  {
    var changed := ini["sensorindex" := ini["sensorindex"][Text.Lower(key) := value]];
    var reqs := Required(extraSection);
    assert Text.Lower("sms count") == "sms count";
    assert Text.Lower("arm state") == "arm state";
    forall i | 0 <= i < |reqs|
      ensures SectionOk(changed, reqs[i]) <==> SectionOk(ini, reqs[i])
    {
      if reqs[i].section == "sensorindex" {
        assert i == 3;
      }
    }
  }

  /** The `email` section is mandatory in mailbox mode and ignored otherwise. */
  lemma EmailRequiredOnlyOnRequest(ini: Ini, extraSection: string)
    ensures "email" !in ini ==> Validate(ini, "email").Failure?
    ensures extraSection != "email" ==>
      (Validate(ini - {"email"}, extraSection).Success? <==> Validate(ini, extraSection).Success?)
    ensures Validate(ini, "email").Success? ==> Validate(ini, extraSection).Success?
  {
    var reqs := Required(extraSection);
    var all := Required("email");
    if "email" !in ini {
      assert !SectionOk(ini, all[4]);
    }
    if extraSection != "email" {
      forall i | 0 <= i < |reqs|
        ensures SectionOk(ini - {"email"}, reqs[i]) <==> SectionOk(ini, reqs[i])
      {
        assert reqs[i].section != "email";
      }
    }
    if Satisfies(ini, all) {
      forall i | 0 <= i < |reqs|
        ensures SectionOk(ini, reqs[i])
      {
        assert reqs[i] == all[i];
      }
    }
  }

  // ---------------------------------------------------------------------
  // The configuration written when no file exists

  /** The template `parseConfig` writes when the configuration file is
      missing (option names lower-cased as `ConfigParser` stores them). */
  const Template: Ini := map[
    "domoticz" := map["protocol" := "http", "host" := "localhost", "port" := "8080"],
    "verisure" := map["username" := "", "password" := ""],
    "global" := map["loglevel" := "warning", "timezone" := "local"],
    "email" := map["host" := "", "port" := "567", "ssl" := "true", "folder" := "",
                   "username" := "", "password" := ""],
    "sensorindex" := map["sms count" := "XX", "arm state" := "XX", "aaaa bbbb" := "XX"]
  ]

  /** The template names every required section and option, in either mode ... */
  lemma TemplateHasEveryRequiredKey(extraSection: string)
    ensures forall i, k :: 0 <= i < |Required(extraSection)| && 0 <= k < |Required(extraSection)[i].keys| ==>
      Required(extraSection)[i].section in Template
      && Get(Template[Required(extraSection)[i].section], Required(extraSection)[i].keys[k]).Some?
  {
    var reqs := Required(extraSection);
    forall i, k | 0 <= i < |reqs| && 0 <= k < |reqs[i].keys|
      ensures reqs[i].section in Template && Get(Template[reqs[i].section], reqs[i].keys[k]).Some?
    {
      RequiredKeysLowerCase(extraSection, i, k);
    }
  }

  /** Required option names are already in the form `ConfigParser` stores. */
  lemma RequiredKeysLowerCase(extraSection: string, i: int, k: int)
    requires 0 <= i < |Required(extraSection)| && 0 <= k < |Required(extraSection)[i].keys|
    ensures Text.Lower(Required(extraSection)[i].keys[k]) == Required(extraSection)[i].keys[k]
  {
    Text.LowerOfLowerCase(Required(extraSection)[i].keys[k]);
  }

  /** ... but leaves the provider credentials empty, so running on an
      unedited template is always refused, at the `verisure` section. */
  lemma TemplateRejected(extraSection: string)
    ensures Validate(Template, extraSection) == Failure(EmptyValue("verisure", "username"))
  {
    var reqs := Required(extraSection);
    RequiredKeysLowerCase(extraSection, 0, 0);
    RequiredKeysLowerCase(extraSection, 0, 1);
    RequiredKeysLowerCase(extraSection, 0, 2);
    RequiredKeysLowerCase(extraSection, 1, 0);
    var domoticz := Template["domoticz"];
    assert Get(domoticz, "protocol") == Some("http");
    assert Get(domoticz, "host") == Some("localhost");
    assert Get(domoticz, "port") == Some("8080");
    assert CheckKeys("domoticz", domoticz, reqs[0].keys).None?;
    assert Get(Template["verisure"], "username") == Some("");
    assert CheckKeys("verisure", Template["verisure"], reqs[1].keys) == Some(EmptyValue("verisure", "username"));
    assert Check(Template, reqs[1..]) == Some(EmptyValue("verisure", "username"));
  }

  /** Python visits the `verisure` options in set order, which depends on the
      hash seed; in either order the unedited template is refused at the
      `verisure` section, for whichever empty credential comes first. */
  lemma TemplateRejectedInEitherOrder(extraSection: string, keys: seq<string>)
    requires keys == ["username", "password"] || keys == ["password", "username"]
    ensures Check(Template, Required(extraSection)[1 := Requirement("verisure", keys)])
              == Some(EmptyValue("verisure", keys[0]))
  {
    var reqs := Required(extraSection)[1 := Requirement("verisure", keys)];
    RequiredKeysLowerCase(extraSection, 0, 0);
    RequiredKeysLowerCase(extraSection, 0, 1);
    RequiredKeysLowerCase(extraSection, 0, 2);
    var domoticz := Template["domoticz"];
    assert Get(domoticz, "protocol") == Some("http");
    assert Get(domoticz, "host") == Some("localhost");
    assert Get(domoticz, "port") == Some("8080");
    assert CheckKeys("domoticz", domoticz, reqs[0].keys).None?;
    Text.LowerOfLowerCase(keys[0]);
    assert Get(Template["verisure"], keys[0]) == Some("");
    assert CheckKeys("verisure", Template["verisure"], keys) == Some(EmptyValue("verisure", keys[0]));
    assert Check(Template, reqs[1..]) == Some(EmptyValue("verisure", keys[0]));
  }
}

=== FILE: devices.dfy ===
/** The records the synchronisation works on: the provider's account
    overview, the device records handed to the update engine, and the
    (type, sensor index, timestamp, device) entries that pair them
    (importVerisure.py, `main` and `processUpdates`).

    Instants are POSIX seconds. Temperatures and humidities are carried as
    the text `str()` gives for them, since the program only ever prints them. */
module Devices {
  import opened Wrappers
  import Json

  // The six device-type tags the update engine knows.
  const ClimateType := "climate"
  const DoorWindowType := "doorwindow"
  const SmsCountType := "smscount"
  const ArmStateType := "armstate"
  const EthernetType := "ethstate"
  const SwitchType := "switchstate"

  const KnownTypes: set<string> :=
    {ClimateType, DoorWindowType, SmsCountType, ArmStateType, EthernetType, SwitchType}

  /** The fields of a device record that its type tag reads. */
  datatype Reading =
    | ClimateReading(temperature: string, humidity: Option<string>)
    | DoorWindowReading(state: string)
    | SmsReading(totalSmsCount: int)
    | ArmReading(statusType: string)
    | EthernetReading(latestEthernetTestResult: Json.Json)
    | PlugReading(currentState: string)

  /** A device record; some records (the SMS counter, the arm state) carry
      no `deviceLabel`. */
  datatype Device = Device(deviceLabel: Option<string>, reading: Reading)

  /** One call of `processUpdates`. */
  datatype Entry = Entry(deviceType: string, sensorIdx: string, lastUpdated: int, device: Device)

  /** The record carries the fields its type tag reads. */
  predicate Matches(deviceType: string, reading: Reading) {
    || (deviceType == ClimateType && reading.ClimateReading?)
    || (deviceType == DoorWindowType && reading.DoorWindowReading?)
    || (deviceType == SmsCountType && reading.SmsReading?)
    || (deviceType == ArmStateType && reading.ArmReading?)
    || (deviceType == EthernetType && reading.EthernetReading?)
    || (deviceType == SwitchType && reading.PlugReading?)
  }

  // ---------------------------------------------------------------------
  // The provider's account overview

  datatype ClimateValue = ClimateValue(deviceLabel: string, temperature: string, humidity: Option<string>, time: int)
  datatype DoorWindow = DoorWindow(deviceLabel: string, state: string, reportTime: int)
  datatype ArmState = ArmState(statusType: string, date: int)
  datatype EthernetStatus = EthernetStatus(deviceLabel: string, latestEthernetTestResult: Json.Json, testDate: int)
  datatype Plug = Plug(deviceLabel: string, currentState: string)

  datatype Overview = Overview(
    climateValues: seq<ClimateValue>,
    doorWindowDevices: seq<DoorWindow>,
    totalSmsCount: int,
    armState: ArmState,
    latestEthernetStatus: EthernetStatus,
    smartPlugs: seq<Plug>,
    controlPlugs: seq<Plug>)
}

=== FILE: errors.dfy ===
/** The ways a synchronisation pass ends abnormally.

    In the Python program each of these is either an `exit(1)` or an
    exception nobody catches; both terminate the pass (and the process),
    so the model turns them into one error value that is returned up to
    the caller instead. */
module Errors {

  datatype Fault =
    /** The hub could not be reached (`callDomoticz` exits). */
    | HubUnreachable(query: string)
    /** The hub answered with something that is not JSON (`json.loads` raises). */
    | HubReplyNotJson(query: string)
    /** The decoded reply is not an object with a `status` field. */
    | EnvelopeUnreadable
    /** `output['result'][0]` raises: empty or non-indexable `result`. */
    | ResultNotIndexable
    /** `'LastUpdate' in output` or `output['LastUpdate']` raises. */
    | LastUpdateUnreadable
    /** The hub's `LastUpdate` value cannot be turned into an instant. */
    | TimestampUnparsable
    /** The device record lacks the field its type tag needs (`KeyError`). */
    | FieldMissing(field: string)
    /** A door/window state other than CLOSE/OPEN leaves `switchState` unbound. */
    | UnboundSwitchState(state: string)
    /** An arm state other than the three known ones leaves `alarmState` unbound. */
    | UnboundAlarmState(statusType: string)
    /** A mandatory sensor-index lookup finds no entry (`KeyError`). */
    | MissingSensorIndex(key: string)
    /** The switch-plug loop subscripts a `zip` pair by a string key (`TypeError`). */
    | PlugPairNotSubscriptable

  /** The faults that come from talking to the hub or reading its replies,
      as opposed to reading the provider's data. */
  predicate HubFault(f: Fault) {
    || f.HubUnreachable? || f.HubReplyNotJson? || f.EnvelopeUnreadable?
    || f.ResultNotIndexable? || f.LastUpdateUnreadable? || f.TimestampUnparsable?
  }
}

=== FILE: hub.dfy ===
/** The hub client: `callDomoticz`, which interprets the hub's JSON
    envelope, and `getLastDomoticzUpdatedTimestamp`, which reads a device's
    last-update instant from it (importVerisure.py).

    The HTTP request itself is not modelled: the hub is a function from the
    query string to what came back over the wire. */
module Hub {
  import opened Wrappers
  import opened Errors
  import opened Json

  /** What one request to the hub yields before the envelope is read. */
  datatype Transport =
    | Delivered(body: Json)
    | Unreachable   // urlopen raised: the program exits
    | Undecodable   // the body is not JSON: json.loads raises

  /** The hub as seen by the program: the reply to each query string. */
  type Endpoint = string -> Transport

  /** What `callDomoticz` returns. */
  datatype Reply =
    | FirstRecord(record: Json)     // `output['result'][0]`
    | WholeEnvelope(envelope: Json) // `output`, for an OK reply without `result`
    | QueryFailed                   // `-1`

  /** Whether a caller's `== -1` / `!= -1` test takes the reply for a failure:
      a first record that is the number -1 is indistinguishable from it. */
  predicate LooksFailed(r: Reply) {
    r.QueryFailed? || r == FirstRecord(JNum(-1))
  }

  /** The envelope interpretation of `callDomoticz`. */
  function DecodeEnvelope(body: Json): (r: Result<Reply, Fault>)
    ensures r.Success? ==> body.JObj? && "status" in body.fields
    ensures !(body.JObj? && "status" in body.fields) ==> r == Failure(EnvelopeUnreadable)
    ensures r == Success(QueryFailed) <==>
      body.JObj? && "status" in body.fields && body.fields["status"] != JStr("OK")
    ensures r.Success? && r.value.FirstRecord? ==>
      body.fields["status"] == JStr("OK") && "result" in body.fields
    ensures r.Success? && r.value.WholeEnvelope? ==>
      r.value.envelope == body && body.fields["status"] == JStr("OK") && "result" !in body.fields
    ensures body.JObj? && "status" in body.fields && body.fields["status"] == JStr("OK") ==>
      && ("result" in body.fields && First(body.fields["result"]).Success? ==>
            r == Success(FirstRecord(First(body.fields["result"]).value)))
      && ("result" in body.fields && First(body.fields["result"]).Failure? ==>
            r == Failure(First(body.fields["result"]).error))
      && ("result" !in body.fields ==> r == Success(WholeEnvelope(body)))
    ensures r.Failure? ==> HubFault(r.error)
  {
    if !body.JObj? || "status" !in body.fields then Failure(EnvelopeUnreadable)
    else if body.fields["status"] != JStr("OK") then Success(QueryFailed)
    else if "result" in body.fields then
      var first :- First(body.fields["result"]);
      Success(FirstRecord(first))
    else Success(WholeEnvelope(body))
  }

  /** One call to the hub: transport failures end the pass. */
  function Call(hub: Endpoint, query: string): (r: Result<Reply, Fault>)
    ensures hub(query).Unreachable? ==> r == Failure(HubUnreachable(query))
    ensures hub(query).Undecodable? ==> r == Failure(HubReplyNotJson(query))
    ensures hub(query).Delivered? ==> r == DecodeEnvelope(hub(query).body)
    ensures r.Failure? ==> HubFault(r.error)
  {
    match hub(query)
    case Unreachable => Failure(HubUnreachable(query))
    case Undecodable => Failure(HubReplyNotJson(query))
    case Delivered(body) => DecodeEnvelope(body)
  }

  // ---------------------------------------------------------------------
  // How the hub phrases its answers

  /** The three kinds of answer the hub's JSON endpoint gives. */
  datatype Answer =
    | Records(items: seq<Json>)   // a device query: `status` OK and a `result` list
    | Acknowledged                // a command: `status` OK, no `result`
    | Refused(status: string)     // any other status

  /** The envelope for an answer; `other` holds the hub's further fields
      (title, server time and the like). */
  function Phrase(a: Answer, other: map<string, Json>): Json {
    match a
    case Records(items) => JObj(other["status" := JStr("OK")]["result" := JArr(items)])
    case Acknowledged => JObj((other - {"result"})["status" := JStr("OK")])
    case Refused(status) => JObj(other["status" := JStr(status)])
  }

  /** Decoding a phrased answer: the first record of a non-empty result,
      the whole envelope of an acknowledgement, failure for any other status,
      whatever else the envelope holds; an empty result list raises. */
  lemma DecodePhrase(a: Answer, other: map<string, Json>)
    ensures a.Records? && |a.items| > 0 ==>
      DecodeEnvelope(Phrase(a, other)) == Success(FirstRecord(a.items[0]))
    ensures a.Records? && |a.items| == 0 ==>
      DecodeEnvelope(Phrase(a, other)) == Failure(ResultNotIndexable)
    ensures a.Acknowledged? ==>
      DecodeEnvelope(Phrase(a, other)) == Success(WholeEnvelope(Phrase(a, other)))
    ensures a.Refused? && a.status != "OK" ==>
      DecodeEnvelope(Phrase(a, other)) == Success(QueryFailed)
  {
  }

  /** Three typical envelopes: a device record, a bare acknowledgement and
      a refusal. */
  lemma EnvelopeExamples()
    ensures var rec := JObj(map["LastUpdate" := JStr("2024-01-01 10:00:00")]);
            DecodeEnvelope(JObj(map["status" := JStr("OK"), "result" := JArr([rec])])) == Success(FirstRecord(rec))
    ensures DecodeEnvelope(JObj(map["status" := JStr("OK")])) == Success(WholeEnvelope(JObj(map["status" := JStr("OK")])))
    ensures DecodeEnvelope(JObj(map["status" := JStr("ERROR")])) == Success(QueryFailed)
  {
  }

  // ---------------------------------------------------------------------
  // The last-update instant of a device

  /** `arrow`'s conversion of the hub's naive `LastUpdate` text into a POSIX
      instant in the configured time zone; `None` when arrow cannot parse it. */
  type Clock = Json -> Option<int>

  /** The hub's answer to "when did this device last change". */
  datatype HubTime =
    | Found(at: int)   // the device record has a readable `LastUpdate`
    | NotFound         // the record has no `LastUpdate`: not configured in the hub
    | NoReply          // the query itself failed

  /** The value the Python `in`/subscript operations are applied to. */
  function Payload(reply: Reply): Json
    requires !reply.QueryFailed?
  {
    if reply.FirstRecord? then reply.record else reply.envelope
  }

  /** `getLastDomoticzUpdatedTimestamp` with the three outcomes kept apart. */
  function LastUpdateTime(reply: Reply, clock: Clock): (r: Result<HubTime, Fault>)
    ensures r == Success(NoReply) <==> LooksFailed(reply)
    ensures !LooksFailed(reply) && Payload(reply).JObj? ==>
      var m := Payload(reply).fields;
      && ("LastUpdate" !in m <==> r == Success(NotFound))
      && ("LastUpdate" in m && clock(m["LastUpdate"]).Some? ==> r == Success(Found(clock(m["LastUpdate"]).value)))
      && ("LastUpdate" in m && clock(m["LastUpdate"]).None? ==> r == Failure(TimestampUnparsable))
    ensures !LooksFailed(reply) ==>
      var present := Contains(Payload(reply), "LastUpdate");
      && (present == Success(false) ==> r == Success(NotFound))
      && (present.Failure? ==> r == Failure(present.error))
      && (present == Success(true) && !Payload(reply).JObj? ==> r == Failure(LastUpdateUnreadable))
    ensures r.Success? && r.value.Found? ==>
      Member(Payload(reply), "LastUpdate").Success?
      && clock(Member(Payload(reply), "LastUpdate").value) == Some(r.value.at)
    ensures r.Failure? ==> HubFault(r.error)
  {
    if LooksFailed(reply) then Success(NoReply)
    else
      var payload := Payload(reply);
      var present :- Contains(payload, "LastUpdate");
      if !present then Success(NotFound)
      else
        var raw :- Member(payload, "LastUpdate");
        match clock(raw)
        case None => Failure(TimestampUnparsable)
        case Some(t) => Success(Found(t))
  }

  /** The reply the hub gives to the device query for `sensorIdx`, read as
      a last-update instant. */
  function QueryLastUpdate(hub: Endpoint, clock: Clock, sensorIdx: string): (r: Result<HubTime, Fault>)
    ensures Call(hub, DeviceQuery(sensorIdx)).Failure? ==>
      r == Failure(Call(hub, DeviceQuery(sensorIdx)).error)
    ensures Call(hub, DeviceQuery(sensorIdx)).Success? ==>
      r == LastUpdateTime(Call(hub, DeviceQuery(sensorIdx)).value, clock)
    ensures r.Failure? ==> HubFault(r.error)
  {
    var reply :- Call(hub, DeviceQuery(sensorIdx));
    LastUpdateTime(reply, clock)
  }

  /** The device query: `type=devices&rid=<index>`. */
  function DeviceQuery(sensorIdx: string): string {
    "type=devices&rid=" + sensorIdx
  }

  // ---------------------------------------------------------------------
  // The function as written: one sentinel for three outcomes

  /** `getLastDomoticzUpdatedTimestamp` as the source writes it: the instant,
      or `-1` both when the query failed and when the record has no
      `LastUpdate`. */
  function LastUpdateAsWritten(reply: Reply, clock: Clock): (r: Result<int, Fault>)
    ensures LooksFailed(reply) ==> r == Success(-1)
  {
    if LooksFailed(reply) then Success(-1)
    else
      var output := Payload(reply);
      var present :- Contains(output, "LastUpdate");
      if present then
        var raw :- Member(output, "LastUpdate");
        match clock(raw)
        case None => Failure(TimestampUnparsable)
        case Some(t) => Success(t)
      else Success(-1)
  }

  /** The source's integer is the typed result with the reason for a missing
      instant forgotten. */
  lemma AsWrittenForgetsReason(reply: Reply, clock: Clock)
    ensures var typed := LastUpdateTime(reply, clock);
            LastUpdateAsWritten(reply, clock) ==
              if typed.Failure? then Failure(typed.error)
              else if typed.value.Found? then Success(typed.value.at)
              else Success(-1)
  {
  }

  /** A device whose hub record says it last changed one second before the
      epoch gets the same `-1` as a failed query, so the caller's `!= -1`
      test takes a real instant for a failure. The typed result keeps the
      two apart. */
  lemma SentinelCollision()
    ensures var rec := FirstRecord(JObj(map["LastUpdate" := JStr("1969-12-31 23:59:59")]));
            var utc: Clock := (j: Json) => if j == JStr("1969-12-31 23:59:59") then Some(-1) else None;
            && LastUpdateAsWritten(rec, utc) == LastUpdateAsWritten(QueryFailed, utc)
            && LastUpdateTime(rec, utc) == Success(Found(-1))
            && LastUpdateTime(QueryFailed, utc) == Success(NoReply)
  {
  }
}

=== FILE: json.dfy ===
/** Decoded JSON values and the three Python operations the program applies
    to them: `key in v`, `v[key]` with a string key and `v[0]`. Each of them
    raises on some values, which the model reports as a `Fault`.
    Numbers are integers here: the program never computes with the hub's
    numbers, it only compares a reply against `-1`. */
module Json {
  import opened Wrappers
  import opened Errors
  import Text

  datatype Json =
    | JNull
    | JBool(b: bool)
    | JNum(n: int)
    | JStr(s: string)
    | JArr(items: seq<Json>)
    | JObj(fields: map<string, Json>)

  /** Python's `key in v`: key lookup on a dict, element test on a list,
      substring test on a string; anything else raises `TypeError`. */
  function Contains(v: Json, key: string): (r: Result<bool, Fault>)
    ensures v.JObj? ==> r == Success(key in v.fields)
    ensures v.JArr? ==> r == Success(JStr(key) in v.items)
    ensures v.JStr? ==> r == Success(Text.IsSubstring(key, v.s))
    ensures v.JStr? ==> (r == Success(true) <==> exists i :: Text.OccursAt(key, v.s, i))
    ensures r.Failure? <==> !(v.JObj? || v.JArr? || v.JStr?)
    ensures r.Failure? ==> HubFault(r.error)
  {
    match v
    case JObj(m) => Success(key in m)
    case JArr(items) => Success(JStr(key) in items)
    case JStr(s) =>
      Text.IsSubstringAt(key, s);
      Success(Text.IsSubstring(key, s))
    case _ => Failure(LastUpdateUnreadable)
  }

  /** Python's `v[key]` with a string key: only a dict holding `key` answers;
      a missing key raises `KeyError`, any other value `TypeError`. */
  function Member(v: Json, key: string): (r: Result<Json, Fault>)
    ensures r.Success? <==> v.JObj? && key in v.fields
    ensures r.Success? ==> r.value == v.fields[key]
    ensures r.Failure? ==> HubFault(r.error)
  {
    if v.JObj? && key in v.fields then Success(v.fields[key]) else Failure(LastUpdateUnreadable)
  }

  /** Python's `v[0]`: the first element of a list, the first character of a
      string; an empty sequence raises `IndexError`, a dict `KeyError` (JSON
      keys are never the integer 0) and a scalar `TypeError`. */
  function First(v: Json): (r: Result<Json, Fault>)
    ensures v.JArr? && |v.items| > 0 ==> r == Success(v.items[0])
    ensures v.JStr? && |v.s| > 0 ==> r == Success(JStr(v.s[..1]))
    ensures r.Success? <==> (v.JArr? && |v.items| > 0) || (v.JStr? && |v.s| > 0)
    ensures r.Failure? ==> HubFault(r.error)
  {
    match v
    case JArr(items) => if |items| > 0 then Success(items[0]) else Failure(ResultNotIndexable)
    case JStr(s) => if |s| > 0 then Success(JStr(s[..1])) else Failure(ResultNotIndexable)
    case _ => Failure(ResultNotIndexable)
  }
}

=== FILE: query.dfy ===
/** The `key=value&key=value` query strings the hub's JSON endpoint reads.

    The program builds its requests by string concatenation; this module
    gives the structured reading of such a string, so that the model can
    state which parameters a built request actually carries. Empty segments
    (two `&` in a row, or a leading `&`) carry no parameter; a segment is
    cut at its first `=`. */
module Query {
  import Text

  /** One `key=value` parameter. */
  type Param = (string, string)

  /** A parameter that survives the round trip through a query string. */
  predicate WellFormed(p: Param) {
    p.0 != "" && '=' !in p.0 && '&' !in p.0 && '&' !in p.1
  }

  function Segment(p: Param): string {
    p.0 + "=" + p.1
  }

  /** The query string for a list of parameters, in order. */
  function Encode(ps: seq<Param>): string {
    Text.Join(seq(|ps|, i requires 0 <= i < |ps| => Segment(ps[i])), '&')
  }

  /** Reads one non-empty segment: the text before the first `=` is the key. */
  function Pair(seg: string): Param {
    if '=' in seg then
      var i := Text.IndexOf(seg, '=');
      (seg[..i], seg[i + 1..])
    else
      (seg, "")
  }

  function Pairs(segs: seq<string>): seq<Param> {
    if segs == [] then []
    else (if segs[0] == "" then [] else [Pair(segs[0])]) + Pairs(segs[1..])
  }

  /** The parameters a query string carries, in order. */
  function Decode(q: string): seq<Param> {
    Pairs(Text.Split(q, '&'))
  }

  lemma PairOfSegment(p: Param)
    requires WellFormed(p)
    ensures Pair(Segment(p)) == p
  {
    Text.IndexOfAfterPrefix(p.0, '=', p.1);
    assert Segment(p) == p.0 + ['='] + p.1;
    var s := Segment(p);
    assert s[..|p.0|] == p.0;
    assert s[|p.0| + 1..] == p.1;
  }

  lemma {:induction false} PairsOfSegments(ps: seq<Param>)
    requires forall i :: 0 <= i < |ps| ==> WellFormed(ps[i])
    ensures Pairs(seq(|ps|, i requires 0 <= i < |ps| => Segment(ps[i]))) == ps
    decreases |ps|
  {
    if ps != [] {
      var segs := seq(|ps|, i requires 0 <= i < |ps| => Segment(ps[i]));
      PairOfSegment(ps[0]);
      assert segs[0] != "";
      assert segs[1..] == seq(|ps[1..]|, i requires 0 <= i < |ps[1..]| => Segment(ps[1..][i]));
      PairsOfSegments(ps[1..]);
      assert ps == [ps[0]] + ps[1..];
    }
  }

  /** Decoding an encoded list of well-formed parameters gives the list back. */
  lemma DecodeEncode(ps: seq<Param>)
    requires forall i :: 0 <= i < |ps| ==> WellFormed(ps[i])
    ensures Decode(Encode(ps)) == ps
  {
    var segs := seq(|ps|, i requires 0 <= i < |ps| => Segment(ps[i]));
    if ps == [] {
      assert Encode(ps) == "";
      assert Text.Split("", '&') == [""];
    } else {
      forall k | 0 <= k < |segs|
        ensures '&' !in segs[k]
      {
        assert segs[k] == ps[k].0 + "=" + ps[k].1;
      }
      Text.SplitJoin(segs, '&');
    }
    PairsOfSegments(ps);
  }

  /** A stray `&` in front of a query adds no parameter and removes none. */
  lemma LeadingSeparatorIgnored(q: string)
    ensures Decode("&" + q) == Decode(q)
  {
    var s := "&" + q;
    assert Text.IndexOf(s, '&') == 0;
    assert s[1..] == q;
    assert Text.Split(s, '&') == [""] + Text.Split(q, '&');
  }

  /** Encoding puts the parameters in the given order, separated by `&`. */
  lemma EncodeCons(p: Param, ps: seq<Param>)
    requires ps != []
    ensures Encode([p] + ps) == Segment(p) + "&" + Encode(ps)
  {
    var all := [p] + ps;
    var segs := seq(|all|, i requires 0 <= i < |all| => Segment(all[i]));
    assert segs[1..] == seq(|ps|, i requires 0 <= i < |ps| => Segment(ps[i]));
  }

  lemma EncodeSingle(p: Param)
    ensures Encode([p]) == Segment(p)
  {
  }
}

=== FILE: scenarios.dfy ===
/** Worked examples of one device against a hub with fixed answers. */
module Scenarios {
  import opened Wrappers
  import opened Json
  import opened Devices
  import opened Updates
  import Hub

  /** The envelope of a successful device query whose one record is `record`. */
  function DeviceReply(record: map<string, Json>): Json {
    JObj(map["status" := JStr("OK"), "result" := JArr([JObj(record)])])
  }

  /** The climate sensor labelled "AAAA BBBB" at 21.5 degrees with no
      humidity, read at `providerTime`, under hub index 7. */
  function ClimateSeven(providerTime: int): Entry {
    Entry(ClimateType, "7", providerTime, Device(Some("AAAA BBBB"), ClimateReading("21.5", None)))
  }

  /** The numeric update for index 7 carrying "21.5". */
  const UpdateSeven := "type=command&param=udevice&idx=7&nvalue=0&svalue=21.5"

  lemma RenderSeven()
    ensures Commands.Render(Commands.SetValue("7", "21.5")) == UpdateSeven
  {
    var head := "type=command" + "&" + "param=udevice" + "&" + "idx=";
    assert head == "type=command&param=udevice&idx=";
    var middle := head + "7" + "&" + "nvalue=0" + "&" + "svalue=";
    assert middle == "type=command&param=udevice&idx=7&nvalue=0&svalue=";
    assert middle + "21.5" == UpdateSeven;
  }

  /** When the hub's instant for index 7 is earlier, one numeric update
      carrying "21.5" goes to index 7 and the hub accepts it; when it is
      not earlier, nothing is sent. */
  lemma ClimateScenario(hub: Hub.Endpoint, clock: Hub.Clock, raw: Json, hubTime: int, providerTime: int)
    requires hub(Hub.DeviceQuery("7")) == Hub.Delivered(DeviceReply(map["LastUpdate" := raw]))
    requires clock(raw) == Some(hubTime)
    requires hub(UpdateSeven) == Hub.Delivered(JObj(map["status" := JStr("OK")]))
    ensures hubTime < providerTime ==>
      ProcessDevice(ClimateSeven(providerTime), hub, clock)
        == Success(Report("AAAA BBBB", Sent(UpdateSeven, true)))
    ensures hubTime >= providerTime ==>
      ProcessDevice(ClimateSeven(providerTime), hub, clock) == Success(Report("AAAA BBBB", NotNewer(hubTime)))
  {
    var reply := Hub.Call(hub, Hub.DeviceQuery("7"));
    assert reply == Success(Hub.FirstRecord(JObj(map["LastUpdate" := raw])));
    assert Hub.QueryLastUpdate(hub, clock, "7") == Success(Hub.Found(hubTime));
    if hubTime < providerTime {
      assert Decide(ClimateType, "7", ClimateSeven(providerTime).device) == Success(Some(Commands.SetValue("7", "21.5")));
      RenderSeven();
      assert Hub.Call(hub, UpdateSeven) == Success(Hub.WholeEnvelope(JObj(map["status" := JStr("OK")])));
    }
  }

  /** A device the hub knows but whose record has no `LastUpdate` is
      skipped without ending the pass. */
  lemma MissingLastUpdateScenario(hub: Hub.Endpoint, clock: Hub.Clock, e: Entry, other: map<string, Json>)
    requires "LastUpdate" !in other
    requires hub(Hub.DeviceQuery(e.sensorIdx)) == Hub.Delivered(DeviceReply(other))
    ensures ProcessDevice(e, hub, clock).Success?
    ensures ProcessDevice(e, hub, clock).value.outcome == NoHubTime(Hub.NotFound)
  {
    assert Hub.Call(hub, Hub.DeviceQuery(e.sensorIdx)) == Success(Hub.FirstRecord(JObj(other)));
  }

  /** An OK envelope without `result` is read as a whole; when it has no
      `LastUpdate` either, the device is skipped as not found. */
  lemma BareEnvelopeScenario(hub: Hub.Endpoint, clock: Hub.Clock, e: Entry, other: map<string, Json>)
    requires "LastUpdate" !in other && "result" !in other
    requires hub(Hub.DeviceQuery(e.sensorIdx)) == Hub.Delivered(JObj(other["status" := JStr("OK")]))
    ensures ProcessDevice(e, hub, clock).Success?
    ensures ProcessDevice(e, hub, clock).value.outcome == NoHubTime(Hub.NotFound)
  {
    var body := JObj(other["status" := JStr("OK")]);
    assert Hub.Call(hub, Hub.DeviceQuery(e.sensorIdx)) == Success(Hub.WholeEnvelope(body));
  }
}

=== FILE: sync.dfy ===
/** One synchronisation pass: the enumeration in `main` of which devices to
    process, in which order and under which sensor index, followed by
    `processUpdates` for each of them in turn (importVerisure.py).

    A fault ends the pass where it happens: the devices before it have been
    processed (and their updates sent), the ones after it are not. */
module Sync {
  import opened Wrappers
  import opened Errors
  import opened Devices
  import Config
  import Hub
  import opened Updates
  import Commands
  import Query

  /** The records of `xs` whose label the sensor index knows, in order,
      each with its sensor index. */
  function Select<T>(xs: seq<T>, labelOf: T -> string, index: Config.Section): (r: seq<(T, string)>)
    ensures |r| <= |xs|
    ensures forall k :: 0 <= k < |r| ==> r[k].0 in xs && Config.Get(index, labelOf(r[k].0)) == Some(r[k].1)
    decreases |xs|
  {
    if xs == [] then []
    else
      var rest := Select(xs[1..], labelOf, index);
      match Config.Get(index, labelOf(xs[0]))
      case Some(idx) => [(xs[0], idx)] + rest
      case None => rest
  }

  /** Every record whose label the index knows is selected, with its index. */
  lemma {:induction false} SelectKeepsKnown<T>(xs: seq<T>, labelOf: T -> string, index: Config.Section, x: T)
    requires x in xs && Config.Get(index, labelOf(x)).Some?
    ensures (x, Config.Get(index, labelOf(x)).value) in Select(xs, labelOf, index)
    decreases |xs|
  {
    if x != xs[0] {
      SelectKeepsKnown(xs[1..], labelOf, index, x);
    }
  }

  /** Selection keeps the overview order: selecting from two runs of records
      is selecting from each run, in turn. */
  lemma {:induction false} SelectAppend<T>(a: seq<T>, b: seq<T>, labelOf: T -> string, index: Config.Section)
    ensures Select(a + b, labelOf, index) == Select(a, labelOf, index) + Select(b, labelOf, index)
    decreases |a|
  {
    if a != [] {
      assert (a + b)[1..] == a[1..] + b;
      SelectAppend(a[1..], b, labelOf, index);
    } else {
      assert a + b == b;
    }
  }

  // ---------------------------------------------------------------------
  // The entries of one pass

  function ClimateEntry(c: ClimateValue, sensorIdx: string): Entry {
    Entry(ClimateType, sensorIdx, c.time, Device(Some(c.deviceLabel), ClimateReading(c.temperature, c.humidity)))
  }

  function DoorWindowEntry(d: DoorWindow, sensorIdx: string): Entry {
    Entry(DoorWindowType, sensorIdx, d.reportTime, Device(Some(d.deviceLabel), DoorWindowReading(d.state)))
  }

  function ClimateEntries(cs: seq<ClimateValue>, index: Config.Section): (r: seq<Entry>)
    ensures forall i :: 0 <= i < |r| ==> r[i].deviceType == ClimateType && r[i].device.reading.ClimateReading?
    ensures var sel := Select(cs, (c: ClimateValue) => c.deviceLabel, index);
      |r| == |sel| && forall i :: 0 <= i < |r| ==> r[i] == ClimateEntry(sel[i].0, sel[i].1)
  {
    var sel := Select(cs, (c: ClimateValue) => c.deviceLabel, index);
    seq(|sel|, i requires 0 <= i < |sel| => ClimateEntry(sel[i].0, sel[i].1))
  }

  function DoorWindowEntries(ds: seq<DoorWindow>, index: Config.Section): (r: seq<Entry>)
    ensures forall i :: 0 <= i < |r| ==> r[i].deviceType == DoorWindowType && r[i].device.reading.DoorWindowReading?
    ensures var sel := Select(ds, (d: DoorWindow) => d.deviceLabel, index);
      |r| == |sel| && forall i :: 0 <= i < |r| ==> r[i] == DoorWindowEntry(sel[i].0, sel[i].1)
  {
    var sel := Select(ds, (d: DoorWindow) => d.deviceLabel, index);
    seq(|sel|, i requires 0 <= i < |sel| => DoorWindowEntry(sel[i].0, sel[i].1))
  }

  /** A climate record has an entry exactly when the index knows its label,
      and the entry carries that index. */
  lemma ClimateEntriesFiltered(cs: seq<ClimateValue>, index: Config.Section, c: ClimateValue)
    requires c in cs
    ensures Config.Get(index, c.deviceLabel).Some? <==>
      ClimateEntry(c, Config.Get(index, c.deviceLabel).GetOr("")) in ClimateEntries(cs, index)
  {
    var labelOf := (c: ClimateValue) => c.deviceLabel;
    var sel := Select(cs, labelOf, index);
    var r := ClimateEntries(cs, index);
    var e := ClimateEntry(c, Config.Get(index, c.deviceLabel).GetOr(""));
    if Config.Get(index, c.deviceLabel).Some? {
      SelectKeepsKnown(cs, labelOf, index, c);
      var k :| 0 <= k < |sel| && sel[k] == (c, Config.Get(index, c.deviceLabel).value);
      assert r[k] == e;
    }
  }

  /** The same for door/window records. */
  lemma DoorWindowEntriesFiltered(ds: seq<DoorWindow>, index: Config.Section, d: DoorWindow)
    requires d in ds
    ensures Config.Get(index, d.deviceLabel).Some? <==>
      DoorWindowEntry(d, Config.Get(index, d.deviceLabel).GetOr("")) in DoorWindowEntries(ds, index)
  {
    var labelOf := (d: DoorWindow) => d.deviceLabel;
    var sel := Select(ds, labelOf, index);
    var r := DoorWindowEntries(ds, index);
    var e := DoorWindowEntry(d, Config.Get(index, d.deviceLabel).GetOr(""));
    if Config.Get(index, d.deviceLabel).Some? {
      SelectKeepsKnown(ds, labelOf, index, d);
      var k :| 0 <= k < |sel| && sel[k] == (d, Config.Get(index, d.deviceLabel).value);
      assert r[k] == e;
    }
  }

  /** The processing order of the device types. */
  function Rank(deviceType: string): nat {
    if deviceType == ClimateType then 0
    else if deviceType == DoorWindowType then 1
    else if deviceType == SmsCountType then 2
    else if deviceType == ArmStateType then 3
    else if deviceType == EthernetType then 4
    else 5
  }

  /** The entries a pass processes, and the fault that ends the enumeration
      early, if any. */
  datatype Plan = Plan(entries: seq<Entry>, stop: Option<Fault>)

  /** The types of the entries that follow the labelled devices, in order. */
  const MandatoryTypes: seq<string> := [SmsCountType, ArmStateType, EthernetType]

  /** The SMS counter, the arm state and the ethernet status under their
      indices (the current instant standing in for the SMS counter's missing
      timestamp); a missing index raises `KeyError`. The switch-plug loop
      that follows subscripts each `zip` pair by a string key, so it raises
      as soon as both plug lists are non-empty. */
  function Mandatory(ov: Overview, index: Config.Section, now: int): (p: Plan)
    ensures |p.entries| <= 3
    ensures forall k :: 0 <= k < |p.entries| ==>
      p.entries[k].deviceType == MandatoryTypes[k] && Matches(p.entries[k].deviceType, p.entries[k].device.reading)
    ensures p.stop.None? <==>
      && Config.Get(index, "sms count").Some?
      && Config.Get(index, "arm state").Some?
      && Config.Get(index, ov.latestEthernetStatus.deviceLabel).Some?
      && (|ov.smartPlugs| == 0 || |ov.controlPlugs| == 0)
    ensures p.stop.None? ==> |p.entries| == 3
    ensures p.stop.Some? ==> p.stop.value.MissingSensorIndex? || p.stop.value == PlugPairNotSubscriptable
    ensures |p.entries| == 3 && p.stop.Some? ==> p.stop == Some(PlugPairNotSubscriptable)
    ensures |p.entries| >= 1 <==> Config.Get(index, "sms count").Some?
    ensures |p.entries| >= 2 <==> Config.Get(index, "sms count").Some? && Config.Get(index, "arm state").Some?
    ensures |p.entries| == 3 <==>
      && Config.Get(index, "sms count").Some? && Config.Get(index, "arm state").Some?
      && Config.Get(index, ov.latestEthernetStatus.deviceLabel).Some?
    ensures |p.entries| >= 1 ==>
      p.entries[0] == Entry(SmsCountType, Config.Get(index, "sms count").value, now,
                            Device(None, SmsReading(ov.totalSmsCount)))
    ensures |p.entries| >= 2 ==>
      p.entries[1] == Entry(ArmStateType, Config.Get(index, "arm state").value, ov.armState.date,
                            Device(None, ArmReading(ov.armState.statusType)))
    ensures |p.entries| == 3 ==>
      var eth := ov.latestEthernetStatus;
      p.entries[2] == Entry(EthernetType, Config.Get(index, eth.deviceLabel).value, eth.testDate,
                            Device(Some(eth.deviceLabel), EthernetReading(eth.latestEthernetTestResult)))
    ensures |p.entries| < 3 ==>
      p.stop == Some(MissingSensorIndex(["sms count", "arm state", ov.latestEthernetStatus.deviceLabel][|p.entries|]))
  {
    match Config.Get(index, "sms count")
    case None => Plan([], Some(MissingSensorIndex("sms count")))
    case Some(smsIdx) =>
      var sms := Entry(SmsCountType, smsIdx, now, Device(None, SmsReading(ov.totalSmsCount)));
      match Config.Get(index, "arm state")
      case None => Plan([sms], Some(MissingSensorIndex("arm state")))
      case Some(armIdx) =>
        var arm := Entry(ArmStateType, armIdx, ov.armState.date, Device(None, ArmReading(ov.armState.statusType)));
        var eth := ov.latestEthernetStatus;
        match Config.Get(index, eth.deviceLabel)
        case None => Plan([sms, arm], Some(MissingSensorIndex(eth.deviceLabel)))
        case Some(ethIdx) =>
          var ethEntry := Entry(EthernetType, ethIdx, eth.testDate,
                                Device(Some(eth.deviceLabel), EthernetReading(eth.latestEthernetTestResult)));
          if |ov.smartPlugs| > 0 && |ov.controlPlugs| > 0 then Plan([sms, arm, ethEntry], Some(PlugPairNotSubscriptable))
          else Plan([sms, arm, ethEntry], None)
  }

  /** A configuration `parseConfig` accepts maps both mandatory sensor-index
      options, so the enumeration never stops at the SMS counter or the arm
      state; only the ethernet label and the plug lists can stop it. */
  lemma ValidConfigReachesEthernet(ini: Config.Ini, extraSection: string, ov: Overview, now: int)
    requires Config.Validate(ini, extraSection).Success?
    ensures "sensorindex" in ini
    ensures |Mandatory(ov, ini["sensorindex"], now).entries| >= 2
    ensures Mandatory(ov, ini["sensorindex"], now).stop.Some? ==>
      Mandatory(ov, ini["sensorindex"], now).stop.value in
        {MissingSensorIndex(ov.latestEthernetStatus.deviceLabel), PlugPairNotSubscriptable}
  {
    var reqs := Config.Required(extraSection);
    assert Config.SectionOk(ini, reqs[3]);
    assert Config.KeyOk(ini["sensorindex"], reqs[3].keys[0]);
    assert Config.KeyOk(ini["sensorindex"], reqs[3].keys[1]);
  }

  /** The enumeration of `main`: climate devices, then door/window devices,
      each kept only when the sensor index knows its label, then the
      mandatory entries. */
  function Enumerate(ov: Overview, index: Config.Section, now: int): (p: Plan)
    ensures forall i :: 0 <= i < |p.entries| ==> Matches(p.entries[i].deviceType, p.entries[i].device.reading)
    ensures p.stop == Mandatory(ov, index, now).stop
    ensures p.entries == ClimateEntries(ov.climateValues, index) + DoorWindowEntries(ov.doorWindowDevices, index)
                         + Mandatory(ov, index, now).entries
    ensures var m := Mandatory(ov, index, now).entries;
      && |m| <= |p.entries|
      && p.entries[|p.entries| - |m|..] == m
      && forall i :: 0 <= i < |p.entries| - |m| ==>
           p.entries[i].deviceType == ClimateType || p.entries[i].deviceType == DoorWindowType
  {
    var m := Mandatory(ov, index, now);
    var p := Plan(ClimateEntries(ov.climateValues, index) + DoorWindowEntries(ov.doorWindowDevices, index) + m.entries, m.stop);
    assert forall i :: 0 <= i < |p.entries| ==> Matches(p.entries[i].deviceType, p.entries[i].device.reading) by {
      var nc := |ClimateEntries(ov.climateValues, index)|;
      var nd := |DoorWindowEntries(ov.doorWindowDevices, index)|;
      forall i | 0 <= i < |p.entries|
        ensures Matches(p.entries[i].deviceType, p.entries[i].device.reading)
      {
        if i >= nc + nd {
          assert p.entries[i] == m.entries[i - nc - nd];
        }
      }
    }
    p
  }

  /** The fixed processing order: climate, door/window, SMS counter, arm
      state, ethernet. */
  lemma EnumerationOrder(ov: Overview, index: Config.Section, now: int)
    ensures var p := Enumerate(ov, index, now);
      forall i, j :: 0 <= i < j < |p.entries| ==> Rank(p.entries[i].deviceType) <= Rank(p.entries[j].deviceType)
  {
    var p := Enumerate(ov, index, now);
    forall i, j | 0 <= i < j < |p.entries|
      ensures Rank(p.entries[i].deviceType) <= Rank(p.entries[j].deviceType)
    {
      EntryRank(ov, index, now, i);
      EntryRank(ov, index, now, j);
    }
  }

  /** The rank of the entry at position `i`: climate entries first, then
      door/window entries, then the mandatory ones in their order. */
  lemma EntryRank(ov: Overview, index: Config.Section, now: int, i: int)
    requires 0 <= i < |Enumerate(ov, index, now).entries|
    ensures var nc := |ClimateEntries(ov.climateValues, index)|;
            var nd := |DoorWindowEntries(ov.doorWindowDevices, index)|;
            Rank(Enumerate(ov, index, now).entries[i].deviceType)
              == if i < nc then 0 else if i < nc + nd then 1 else 2 + i - nc - nd
  {
    var p := Enumerate(ov, index, now);
    var m := Mandatory(ov, index, now);
    var cl := ClimateEntries(ov.climateValues, index);
    var dw := DoorWindowEntries(ov.doorWindowDevices, index);
    var nc := |cl|;
    var nd := |dw|;
    assert p.entries == cl + dw + m.entries;
    if i >= nc + nd {
      assert p.entries[i] == m.entries[i - nc - nd];
      assert Rank(SmsCountType) == 2 && Rank(ArmStateType) == 3 && Rank(EthernetType) == 4;
    } else if i >= nc {
      assert p.entries[i] == dw[i - nc];
      assert Rank(DoorWindowType) == 1;
    } else {
      assert p.entries[i] == cl[i];
      assert Rank(ClimateType) == 0;
    }
  }

  /** A climate record is processed exactly when the sensor index knows
      its label (ignoring case), and then under that index. */
  lemma ClimateFilteredByIndex(ov: Overview, index: Config.Section, now: int, c: ClimateValue)
    requires c in ov.climateValues
    ensures Config.Get(index, c.deviceLabel).Some? <==>
      ClimateEntry(c, Config.Get(index, c.deviceLabel).GetOr("")) in Enumerate(ov, index, now).entries
  {
    var m := Mandatory(ov, index, now);
    var cl := ClimateEntries(ov.climateValues, index);
    var dw := DoorWindowEntries(ov.doorWindowDevices, index);
    assert Enumerate(ov, index, now).entries == cl + dw + m.entries;
    var e := ClimateEntry(c, Config.Get(index, c.deviceLabel).GetOr(""));
    ClimateEntriesFiltered(ov.climateValues, index, c);
    assert e !in dw;
    assert e !in m.entries by {
      assert ClimateType !in MandatoryTypes;
    }
  }

  /** A door/window record is processed exactly when the sensor index knows
      its label (ignoring case), and then under that index. */
  lemma DoorWindowFilteredByIndex(ov: Overview, index: Config.Section, now: int, d: DoorWindow)
    requires d in ov.doorWindowDevices
    ensures Config.Get(index, d.deviceLabel).Some? <==>
      DoorWindowEntry(d, Config.Get(index, d.deviceLabel).GetOr("")) in Enumerate(ov, index, now).entries
  {
    var m := Mandatory(ov, index, now);
    var cl := ClimateEntries(ov.climateValues, index);
    var dw := DoorWindowEntries(ov.doorWindowDevices, index);
    assert Enumerate(ov, index, now).entries == cl + dw + m.entries;
    var e := DoorWindowEntry(d, Config.Get(index, d.deviceLabel).GetOr(""));
    DoorWindowEntriesFiltered(ov.doorWindowDevices, index, d);
    assert e !in cl;
    assert e !in m.entries by {
      assert DoorWindowType !in MandatoryTypes;
    }
  }

  // ---------------------------------------------------------------------
  // Running the pass

  /** The reports of the devices processed, and the fault that ended the
      pass early, if any. */
  datatype PassReport = PassReport(reports: seq<Report>, abort: Option<Fault>)

  /** `processUpdates` for each entry in turn until one faults. */
  function RunPass(entries: seq<Entry>, hub: Hub.Endpoint, clock: Hub.Clock): (p: PassReport)
    ensures |p.reports| <= |entries|
    ensures p.abort.None? ==> |p.reports| == |entries|
    ensures p.abort.Some? ==>
      |p.reports| < |entries| && ProcessDevice(entries[|p.reports|], hub, clock) == Failure(p.abort.value)
    ensures forall i :: 0 <= i < |p.reports| ==> ProcessDevice(entries[i], hub, clock) == Success(p.reports[i])
    decreases |entries|
  {
    if entries == [] then PassReport([], None)
    else
      match ProcessDevice(entries[0], hub, clock)
      case Failure(f) => PassReport([], Some(f))
      case Success(report) =>
        var rest := RunPass(entries[1..], hub, clock);
        PassReport([report] + rest.reports, rest.abort)
  }

  /** One whole pass over an overview. */
  function Synchronise(ov: Overview, index: Config.Section, now: int, hub: Hub.Endpoint, clock: Hub.Clock): (p: PassReport)
    ensures var plan := Enumerate(ov, index, now);
      && |p.reports| <= |plan.entries|
      && (forall i :: 0 <= i < |p.reports| ==> ProcessDevice(plan.entries[i], hub, clock) == Success(p.reports[i]))
      && (p.abort.None? <==> |p.reports| == |plan.entries| && plan.stop.None?)
    ensures var plan := Enumerate(ov, index, now);
      p.abort.Some? ==>
        || (|p.reports| < |plan.entries| && ProcessDevice(plan.entries[|p.reports|], hub, clock) == Failure(p.abort.value))
        || (|p.reports| == |plan.entries| && p.abort == plan.stop)
  {
    var plan := Enumerate(ov, index, now);
    var run := RunPass(plan.entries, hub, clock);
    if run.abort.Some? then run else PassReport(run.reports, plan.stop)
  }

  /** Across a whole pass, an update is sent for a device only when the
      hub reported an instant for its index and the provider's instant is
      strictly later, and the hub reads back exactly the parameters of the
      device's command. */
  lemma PassWritesOnlyNewer(ov: Overview, index: Config.Section, now: int, hub: Hub.Endpoint, clock: Hub.Clock)
    ensures var plan := Enumerate(ov, index, now);
      var p := Synchronise(ov, index, now, hub, clock);
      forall i :: 0 <= i < |p.reports| && p.reports[i].outcome.Sent? ==>
        var e := plan.entries[i];
        var t := Hub.QueryLastUpdate(hub, clock, e.sensorIdx);
        var c := Decide(e.deviceType, e.sensorIdx, e.device).value.value;
        && t.Success? && t.value.Found? && e.lastUpdated > t.value.at
        && (Commands.Clean(c) ==> Query.Decode(p.reports[i].outcome.query) == Commands.Params(c))
  {
    var plan := Enumerate(ov, index, now);
    var p := Synchronise(ov, index, now, hub, clock);
    forall i | 0 <= i < |p.reports| && p.reports[i].outcome.Sent?
      ensures var e := plan.entries[i];
        var t := Hub.QueryLastUpdate(hub, clock, e.sensorIdx);
        var c := Decide(e.deviceType, e.sensorIdx, e.device).value.value;
        && t.Success? && t.value.Found? && e.lastUpdated > t.value.at
        && (Commands.Clean(c) ==> Query.Decode(p.reports[i].outcome.query) == Commands.Params(c))
    {
      SentUpdateCarriesCommand(plan.entries[i], hub, clock);
    }
  }

  /** An entry whose reading fits its type tag never faults for a missing field. */
  lemma MatchedEntryHasItsField(e: Entry, hub: Hub.Endpoint, clock: Hub.Clock)
    requires Matches(e.deviceType, e.device.reading)
    ensures ProcessDevice(e, hub, clock).Failure? ==> !ProcessDevice(e, hub, clock).error.FieldMissing?
  {
  }

  /** Every entry the enumeration produces carries the fields its type reads,
      so no pass ends for a missing field. */
  lemma NoMissingFields(ov: Overview, index: Config.Section, now: int, hub: Hub.Endpoint, clock: Hub.Clock)
    ensures var p := Synchronise(ov, index, now, hub, clock);
      p.abort.Some? ==> !p.abort.value.FieldMissing?
  {
    var plan := Enumerate(ov, index, now);
    var p := Synchronise(ov, index, now, hub, clock);
    if p.abort.Some? {
      var n := |p.reports|;
      if n < |plan.entries| && ProcessDevice(plan.entries[n], hub, clock) == Failure(p.abort.value) {
        MatchedEntryHasItsField(plan.entries[n], hub, clock);
      } else {
        assert p.abort == Mandatory(ov, index, now).stop;
      }
    }
  }
}

=== FILE: text.dfy ===
/** String helpers the program gets from Python's `str` type: case mapping,
    substring tests, splitting on a separator and decimal rendering of
    integers. Only ASCII letters change case. */
module Text {
  import opened Wrappers

  function LowerChar(c: char): char {
    if 'A' <= c <= 'Z' then (c as int + 32) as char else c
  }

  function UpperChar(c: char): char {
    if 'a' <= c <= 'z' then (c as int - 32) as char else c
  }

  /** `str.lower()`, restricted to ASCII letters. */
  function Lower(s: string): (r: string)
    ensures |r| == |s|
    ensures forall i :: 0 <= i < |s| ==> r[i] == LowerChar(s[i])
  {
    seq(|s|, i requires 0 <= i < |s| => LowerChar(s[i]))
  }

  /** A string without upper-case letters is its own lower-case form. */
  lemma LowerOfLowerCase(s: string)
    requires forall i :: 0 <= i < |s| ==> !('A' <= s[i] <= 'Z')
    ensures Lower(s) == s
  {
  }

  /** `str.upper()`, restricted to ASCII letters. */
  function Upper(s: string): (r: string)
    ensures |r| == |s|
    ensures forall i :: 0 <= i < |s| ==> r[i] == UpperChar(s[i])
  {
    seq(|s|, i requires 0 <= i < |s| => UpperChar(s[i]))
  }

  /** Python's `t in s` for two strings. */
  predicate IsSubstring(t: string, s: string)
    decreases |s|
  {
    t <= s || (|s| > 0 && IsSubstring(t, s[1..]))
  }

  /** `t` occurs in `s` starting at position `i`. */
  predicate OccursAt(t: string, s: string, i: int) {
    0 <= i <= |s| - |t| && s[i..i + |t|] == t
  }

  /** The substring test holds exactly when `t` occurs at some position of `s`. */
  lemma {:induction false} IsSubstringAt(t: string, s: string)
    ensures IsSubstring(t, s) <==> exists i :: OccursAt(t, s, i)
    decreases |s|
  {
    if t <= s {
      assert OccursAt(t, s, 0);
    } else if |s| > 0 {
      IsSubstringAt(t, s[1..]);
      if IsSubstring(t, s[1..]) {
        var i :| OccursAt(t, s[1..], i);
        assert OccursAt(t, s, i + 1);
      }
      if exists i :: OccursAt(t, s, i) {
        var i :| OccursAt(t, s, i);
        if i == 0 {
          assert false;
        }
        assert OccursAt(t, s[1..], i - 1);
      }
    }
  }

  // ---------------------------------------------------------------------
  // Splitting and joining on a one-character separator

  /** Position of the first occurrence of `c` in `s`. */
  function IndexOf(s: string, c: char): (i: nat)
    requires c in s
    ensures i < |s| && s[i] == c && c !in s[..i]
  {
    if s[0] == c then 0 else 1 + IndexOf(s[1..], c)
  }

  lemma IndexOfAfterPrefix(a: string, c: char, b: string)
    requires c !in a
    ensures c in a + [c] + b
    ensures IndexOf(a + [c] + b, c) == |a|
  {
    var s := a + [c] + b;
    assert s[|a|] == c;
    assert forall j :: 0 <= j < |a| ==> s[j] == a[j];
  }

  /** `str.split(sep)`: the pieces between separators, never empty itself. */
  function Split(s: string, sep: char): (parts: seq<string>)
    ensures |parts| >= 1
    ensures forall k :: 0 <= k < |parts| ==> sep !in parts[k]
    decreases |s|
  {
    if sep in s then
      var i := IndexOf(s, sep);
      [s[..i]] + Split(s[i + 1..], sep)
    else
      [s]
  }

  /** `sep.join(parts)`. */
  function Join(parts: seq<string>, sep: char): string
    decreases |parts|
  {
    if |parts| == 0 then ""
    else if |parts| == 1 then parts[0]
    else parts[0] + [sep] + Join(parts[1..], sep)
  }

  /** Splitting a joined list gives the list back when no piece contains
      the separator. */
  lemma {:induction false} SplitJoin(parts: seq<string>, sep: char)
    requires |parts| >= 1
    requires forall k :: 0 <= k < |parts| ==> sep !in parts[k]
    ensures Split(Join(parts, sep), sep) == parts
    decreases |parts|
  {
    if |parts| > 1 {
      var p := parts[0];
      var rest := Join(parts[1..], sep);
      var s := p + [sep] + rest;
      assert Join(parts, sep) == s;
      IndexOfAfterPrefix(p, sep, rest);
      assert s[..|p|] == p;
      assert s[|p| + 1..] == rest;
      assert Split(s, sep) == [p] + Split(rest, sep);
      SplitJoin(parts[1..], sep);
      assert parts == [p] + parts[1..];
    }
  }

  // ---------------------------------------------------------------------
  // Decimal rendering of integers (Python's `str(int)`)

  predicate IsDigit(c: char) {
    '0' <= c <= '9'
  }

  predicate AllDigits(s: string) {
    forall i :: 0 <= i < |s| ==> IsDigit(s[i])
  }

  function DigitChar(d: nat): (c: char)
    requires d < 10
    ensures IsDigit(c)
  {
    (d + '0' as int) as char
  }

  function DigitValue(c: char): (d: nat)
    requires IsDigit(c)
    ensures d < 10
  {
    c as int - '0' as int
  }

  /** Decimal digits of `n`, most significant first, without leading zeros. */
  function NatToDecimal(n: nat): (s: string)
    ensures |s| >= 1 && AllDigits(s)
    ensures |s| > 1 ==> s[0] != '0'
  {
    if n < 10 then [DigitChar(n)] else NatToDecimal(n / 10) + [DigitChar(n % 10)]
  }

  /** The number a string of decimal digits denotes. */
  function DecimalValue(s: string): nat
    requires AllDigits(s)
  {
    if s == [] then 0 else DecimalValue(s[..|s| - 1]) * 10 + DigitValue(s[|s| - 1])
  }

  /** `str(n)` for a Python `int`: a minus sign for negative numbers. */
  function IntToDecimal(n: int): string {
    if n < 0 then "-" + NatToDecimal(-n) else NatToDecimal(n)
  }

  /** Reads back an optionally signed decimal integer. */
  function ParseInt(s: string): Option<int> {
    if |s| > 1 && s[0] == '-' && AllDigits(s[1..]) then Some(-(DecimalValue(s[1..]) as int))
    else if |s| > 0 && AllDigits(s) then Some(DecimalValue(s))
    else None
  }

  lemma {:induction false} NatDecimalRoundTrip(n: nat)
    ensures DecimalValue(NatToDecimal(n)) == n
  {
    if n >= 10 {
      NatDecimalRoundTrip(n / 10);
      var s := NatToDecimal(n);
      assert s[..|s| - 1] == NatToDecimal(n / 10);
    }
  }

  /** The rendering of every integer reads back as that integer. */
  lemma IntDecimalRoundTrip(n: int)
    ensures ParseInt(IntToDecimal(n)) == Some(n)
  {
    if n < 0 {
      var digits := NatToDecimal(-n);
      NatDecimalRoundTrip(-n);
      var s := "-" + digits;
      assert s[0] == '-';
      assert s[1..] == digits;
      assert ParseInt(s) == Some(-(DecimalValue(digits) as int));
    } else {
      var digits := NatToDecimal(n);
      NatDecimalRoundTrip(n);
      assert digits[0] != '-';
    }
  }
}

=== FILE: updates.dfy ===
/** The staleness-gated update engine: `processUpdates` (importVerisure.py).

    For one device it reads the hub's last-update instant, and only when the
    provider's instant is strictly later builds the type-specific command and
    sends it. */
module Updates {
  import opened Wrappers
  import opened Errors
  import opened Devices
  import Json
  import Text
  import Query
  import Hub
  import opened Commands

  /** A device without a label is named after its type, upper-cased; only
      the log lines use the label. */
  function ResolveLabel(deviceType: string, d: Device): (r: Device)
    ensures r.deviceLabel.Some? && r.reading == d.reading
    ensures d.deviceLabel.Some? ==> r == d
    ensures d.deviceLabel.None? ==> r.deviceLabel.value == Text.Upper(deviceType)
  {
    if d.deviceLabel.Some? then d else Device(Some(Text.Upper(deviceType)), d.reading)
  }

  // ---------------------------------------------------------------------
  // The value mappings

  /** The `svalue` of a climate update: the temperature, followed by the
      humidity and a trailing `0` field when the record has a humidity. */
  function ClimateValue(temperature: string, humidity: Option<string>): string {
    match humidity
    case None => temperature
    case Some(h) => temperature + ";" + h + ";0"
  }

  /** The hub reads the climate value as `;`-separated fields: the
      temperature alone, or temperature, humidity and the marker `0`. */
  lemma ClimateValueFields(temperature: string, humidity: Option<string>)
    requires ';' !in temperature
    requires humidity.Some? ==> ';' !in humidity.value
    ensures humidity.None? ==> Text.Split(ClimateValue(temperature, humidity), ';') == [temperature]
    ensures humidity.Some? ==>
      Text.Split(ClimateValue(temperature, humidity), ';') == [temperature, humidity.value, "0"]
  {
    match humidity
    case None =>
      assert Text.Join([temperature], ';') == temperature;
      Text.SplitJoin([temperature], ';');
    case Some(h) =>
      var parts := [temperature, h, "0"];
      assert Text.Join(parts[2..], ';') == "0";
      assert Text.Join(parts[1..], ';') == h + ";" + "0";
      assert Text.Join(parts, ';') == temperature + ";" + h + ";0";
      Text.SplitJoin(parts, ';');
  }

  /** Door/window state to switch command; any other state has no command. */
  function DoorSwitch(state: string): (r: Option<string>)
    ensures r.Some? <==> state == "CLOSE" || state == "OPEN"
    ensures state == "CLOSE" ==> r == Some("Off")
    ensures state == "OPEN" ==> r == Some("On")
  {
    if state == "CLOSE" then Some("Off")
    else if state == "OPEN" then Some("On")
    else None
  }

  /** Arm state to selector level; any other status has no level. */
  function ArmLevel(statusType: string): (r: Option<string>)
    ensures r.Some? <==> statusType in {"DISARMED", "ARMED_HOME", "ARMED_AWAY"}
    ensures statusType == "DISARMED" ==> r == Some("0")
    ensures statusType == "ARMED_HOME" ==> r == Some("10")
    ensures statusType == "ARMED_AWAY" ==> r == Some("20")
  {
    if statusType == "DISARMED" then Some("0")
    else if statusType == "ARMED_HOME" then Some("10")
    else if statusType == "ARMED_AWAY" then Some("20")
    else None
  }

  /** Distinct arm states get distinct levels, so the hub's level tells the
      arm state back. */
  lemma ArmLevelInjective(a: string, b: string)
    requires ArmLevel(a).Some? && ArmLevel(a) == ArmLevel(b)
    ensures a == b
  {
  }

  /** Python's `v == True`: the boolean true, or the number 1. */
  predicate EqualsTrue(v: Json.Json) {
    v == Json.JBool(true) || v == Json.JNum(1)
  }

  /** Ethernet test result to switch command: on exactly when it equals True. */
  function EthernetSwitch(result: Json.Json): (r: string)
    ensures r == "On" <==> EqualsTrue(result)
    ensures r == "Off" <==> !EqualsTrue(result)
  {
    if EqualsTrue(result) then "On" else "Off"
  }

  // ---------------------------------------------------------------------
  // Building the command

  /** The command for a device whose provider data is newer, dispatching on
      the type tag: `None` for an unknown tag (logged, nothing sent), a
      fault when the record lacks the field the tag reads or holds a state
      the mapping leaves unbound. */
  function Decide(deviceType: string, sensorIdx: string, d: Device): (r: Result<Option<Command>, Fault>)
    ensures deviceType !in KnownTypes <==> r == Success(None)
    ensures r.Success? && r.value.Some? ==> r.value.value.idx == sensorIdx
    ensures deviceType in KnownTypes && !Matches(deviceType, d.reading) ==> r.Failure? && r.error.FieldMissing?
    ensures r.Failure? ==> deviceType in KnownTypes
    ensures deviceType == DoorWindowType && d.reading.DoorWindowReading? && DoorSwitch(d.reading.state).None? ==>
      r == Failure(UnboundSwitchState(d.reading.state))
    ensures deviceType == ArmStateType && d.reading.ArmReading? && ArmLevel(d.reading.statusType).None? ==>
      r == Failure(UnboundAlarmState(d.reading.statusType))
    ensures Matches(deviceType, d.reading) && r.Failure? ==>
      || (d.reading.DoorWindowReading? && r.error == UnboundSwitchState(d.reading.state))
      || (d.reading.ArmReading? && r.error == UnboundAlarmState(d.reading.statusType))
  {
    if deviceType == ClimateType then
      match d.reading
      case ClimateReading(t, h) => Success(Some(SetValue(sensorIdx, ClimateValue(t, h))))
      case _ => Failure(FieldMissing("temperature"))
    else if deviceType == DoorWindowType then
      match d.reading
      case DoorWindowReading(state) =>
        (match DoorSwitch(state)
         case Some(cmd) => Success(Some(SetSwitch(sensorIdx, cmd)))
         case None => Failure(UnboundSwitchState(state)))
      case _ => Failure(FieldMissing("state"))
    else if deviceType == SmsCountType then
      match d.reading
      case SmsReading(n) => Success(Some(SetValue(sensorIdx, Text.IntToDecimal(n))))
      case _ => Failure(FieldMissing("totalSmsCount"))
    else if deviceType == ArmStateType then
      match d.reading
      case ArmReading(status) =>
        (match ArmLevel(status)
         case Some(level) => Success(Some(SetLevel(sensorIdx, level)))
         case None => Failure(UnboundAlarmState(status)))
      case _ => Failure(FieldMissing("statusType"))
    else if deviceType == EthernetType then
      match d.reading
      case EthernetReading(v) => Success(Some(SetSwitch(sensorIdx, EthernetSwitch(v))))
      case _ => Failure(FieldMissing("latestEthernetTestResult"))
    else if deviceType == SwitchType then
      match d.reading
      case PlugReading(state) => Success(Some(SetPlug(sensorIdx, state)))
      case _ => Failure(FieldMissing("currentState"))
    else
      Success(None)
  }

  /** What each device type asks the hub to do. */
  lemma DecideByType(sensorIdx: string, d: Device)
    ensures d.reading.ClimateReading? ==>
      Decide(ClimateType, sensorIdx, d)
        == Success(Some(SetValue(sensorIdx, ClimateValue(d.reading.temperature, d.reading.humidity))))
    ensures d.reading.DoorWindowReading? && d.reading.state == "CLOSE" ==>
      Decide(DoorWindowType, sensorIdx, d) == Success(Some(SetSwitch(sensorIdx, "Off")))
    ensures d.reading.DoorWindowReading? && d.reading.state == "OPEN" ==>
      Decide(DoorWindowType, sensorIdx, d) == Success(Some(SetSwitch(sensorIdx, "On")))
    ensures d.reading.SmsReading? ==>
      Decide(SmsCountType, sensorIdx, d).Success?
      && Decide(SmsCountType, sensorIdx, d).value.value.SetValue?
      && Text.ParseInt(Decide(SmsCountType, sensorIdx, d).value.value.svalue) == Some(d.reading.totalSmsCount)
    ensures d.reading.ArmReading? && ArmLevel(d.reading.statusType).Some? ==>
      Decide(ArmStateType, sensorIdx, d) == Success(Some(SetLevel(sensorIdx, ArmLevel(d.reading.statusType).value)))
    ensures d.reading.EthernetReading? ==>
      Decide(EthernetType, sensorIdx, d)
        == Success(Some(SetSwitch(sensorIdx, if EqualsTrue(d.reading.latestEthernetTestResult) then "On" else "Off")))
    ensures d.reading.PlugReading? ==>
      Decide(SwitchType, sensorIdx, d) == Success(Some(SetPlug(sensorIdx, d.reading.currentState)))
  {
    if d.reading.SmsReading? {
      Text.IntDecimalRoundTrip(d.reading.totalSmsCount);
    }
  }

  // ---------------------------------------------------------------------
  // One device

  /** How the processing of one device ended. */
  datatype Outcome =
    | NoHubTime(why: Hub.HubTime)             // no instant from the hub: nothing sent
    | NotNewer(hubTime: int)                  // the hub is up to date: nothing sent
    | UnknownType                             // unknown type tag: nothing sent
    | Sent(query: string, acknowledged: bool) // the update was sent; did the hub accept it

  datatype Report = Report(deviceLabel: string, outcome: Outcome)

  /** `processUpdates` for one entry against the hub `hub`. */
  function ProcessDevice(e: Entry, hub: Hub.Endpoint, clock: Hub.Clock): (r: Result<Report, Fault>)
    ensures r.Success? ==> r.value.deviceLabel == ResolveLabel(e.deviceType, e.device).deviceLabel.value
    ensures var t := Hub.QueryLastUpdate(hub, clock, e.sensorIdx);
      && (t.Failure? ==> r == Failure(t.error))
      && (t.Success? && !t.value.Found? ==> r.Success? && r.value.outcome == NoHubTime(t.value))
      && (t.Success? && t.value.Found? && e.lastUpdated <= t.value.at ==>
            r.Success? && r.value.outcome == NotNewer(t.value.at))
    ensures r.Failure? ==>
      HubFault(r.error) || Decide(e.deviceType, e.sensorIdx, e.device) == Failure(r.error)
    ensures var t := Hub.QueryLastUpdate(hub, clock, e.sensorIdx);
            var c := Decide(e.deviceType, e.sensorIdx, e.device);
            (r.Success? && r.value.outcome.Sent?) <==>
              && t.Success? && t.value.Found? && e.lastUpdated > t.value.at
              && c.Success? && c.value.Some?
              && Hub.Call(hub, Render(c.value.value)).Success?
    ensures r.Success? && r.value.outcome.Sent? ==>
      r.value.outcome.query == Render(Decide(e.deviceType, e.sensorIdx, e.device).value.value)
    ensures r.Success? && r.value.outcome.Sent? ==>
      r.value.outcome.acknowledged == !Hub.LooksFailed(Hub.Call(hub, r.value.outcome.query).value)
    ensures var t := Hub.QueryLastUpdate(hub, clock, e.sensorIdx);
            var c := Decide(e.deviceType, e.sensorIdx, e.device);
            t.Success? && t.value.Found? && e.lastUpdated > t.value.at ==>
              && (c.Failure? ==> r == Failure(c.error))
              && (c == Success(None) ==>
                    r == Success(Report(ResolveLabel(e.deviceType, e.device).deviceLabel.value, UnknownType)))
              && (c.Success? && c.value.Some? && Hub.Call(hub, Render(c.value.value)).Failure? ==>
                    r == Failure(Hub.Call(hub, Render(c.value.value)).error))
  {
    var name := ResolveLabel(e.deviceType, e.device).deviceLabel.value;
    var hubTime :- Hub.QueryLastUpdate(hub, clock, e.sensorIdx);
    match hubTime
    case Found(at) =>
      if e.lastUpdated > at then
        var command :- Decide(e.deviceType, e.sensorIdx, e.device);
        match command
        case None => Success(Report(name, UnknownType))
        case Some(c) =>
          var query := Render(c);
          var ack :- Hub.Call(hub, query);
          Success(Report(name, Sent(query, !Hub.LooksFailed(ack))))
      else Success(Report(name, NotNewer(at)))
    case _ => Success(Report(name, NoHubTime(hubTime)))
  }

  /** What an update carries: the request sent for a device is its
      command's, and the hub reads back exactly the command's parameters. */
  lemma {:induction false} SentUpdateCarriesCommand(e: Entry, hub: Hub.Endpoint, clock: Hub.Clock)
    ensures var r := ProcessDevice(e, hub, clock);
            var c := Decide(e.deviceType, e.sensorIdx, e.device);
            r.Success? && r.value.outcome.Sent? && Clean(c.value.value) ==>
              && e.deviceType in KnownTypes
              && Query.Decode(r.value.outcome.query) == Params(c.value.value)
  {
    var c := Decide(e.deviceType, e.sensorIdx, e.device);
    if c.Success? && c.value.Some? && Clean(c.value.value) {
      RenderCarriesParams(c.value.value);
    }
  }

  /** The gate as the source writes it: the hub's instant read through the
      `-1` sentinel must differ from `-1` and be older than the provider's. */
  predicate SourceGateOpen(e: Entry, hub: Hub.Endpoint, clock: Hub.Clock) {
    var reply := Hub.Call(hub, Hub.DeviceQuery(e.sensorIdx));
    && reply.Success?
    && var t := Hub.LastUpdateAsWritten(reply.value, clock);
       t.Success? && t.value != -1 && e.lastUpdated > t.value
  }

  /** The model's gate agrees with the source's except for a hub instant of
      exactly -1, which the source mistakes for "no answer". */
  lemma GateDiffersOnlyAtSentinel(e: Entry, hub: Hub.Endpoint, clock: Hub.Clock)
    ensures var t := Hub.QueryLastUpdate(hub, clock, e.sensorIdx);
            (t.Success? && t.value.Found? && e.lastUpdated > t.value.at) <==>
              (SourceGateOpen(e, hub, clock) || (t == Success(Hub.Found(-1)) && e.lastUpdated > -1))
  {
    var reply := Hub.Call(hub, Hub.DeviceQuery(e.sensorIdx));
    if reply.Success? {
      Hub.AsWrittenForgetsReason(reply.value, clock);
    }
  }
}

=== FILE: wrappers.dfy ===
/** Failure-compatible Option and Result types used throughout the model. */
module Wrappers {

  /** A value that may be absent. */
  datatype Option<+T> = None | Some(value: T) {

    predicate IsFailure() {
      None?
    }

    function PropagateFailure<U>(): Option<U>
      requires None?
    {
      None
    }

    function Extract(): T
      requires Some?
    {
      value
    }

    /** The value, or `default` when there is none. */
    function GetOr(default: T): T {
      if Some? then value else default
    }
  }

  /** Either a value or the error that prevented computing it. */
  datatype Result<+R, +E> = Success(value: R) | Failure(error: E) {

    predicate IsFailure() {
      Failure?
    }

    function PropagateFailure<U>(): Result<U, E>
      requires Failure?
    {
      Failure(error)
    }

    function Extract(): R
      requires Success?
    {
      value
    }
  }
}
